=== FILE: README.md ===
# Sliding-window template search: a Dafny model

The repository searches a target matrix T for the placements of a smaller
pattern matrix S. It slides S over every top-left offset (i, j) of T and
scores each window with a metric (here the sum of squared differences).
It keeps the best score and every offset that reaches it within a
tolerance of 1e-10. There is a sequential search, `compute`, and a
parallel one, `compute_parallel`. The parallel search splits the row
offsets into contiguous chunks, one worker per chunk, then folds the
workers' local results in chunk order with the same replace/tie rule.
Around the engine sit:

- the squared-difference metric, in a sequential form and a parallel form
  that adds up per-chunk partial sums;
- the helpers in `src/utils.cpp`: matrix dimensions from a data file's
  name, reading a comma-separated matrix of digits, the position-list text,
  and the path and record of the CSV result file;
- `parse_filename` in `plot.py`, which recovers the data name and the two
  sizes from a CSV result file's name.

Modules, one per file:

| file | module | models |
|---|---|---|
| exceptions.dfy | `Exceptions` | the exceptions thrown (`invalid_argument`, `runtime_error`, `out_of_range`) as values; `Result`, `Outcome`, `Option` |
| grid.dfy | `Grid` | offsets and the row-major order of the search loops |
| chunking.dfy | `Chunking` | the contiguous chunk split shared by `compute_parallel` and `compute_ssd_parallel` |
| best_set.dfy | `BestSet` | the best value with its tie list, the replace/tie rule, and the scan of a list of offsets |
| compute.dfy | `Compute` | `compute`, `compute_thread_func`, `compute_parallel` (src/compute.cpp) |
| ssd_metric.dfy | `SsdMetric` | `compute_ssd` (src/ssd.cpp) |
| ssd_parallel.dfy | `SsdParallel` | `ssd_thread_func`, `compute_ssd`, `compute_ssd_parallel` (ssd.cpp) |
| utils.dfy | `Utils` | `parse_filename`, `read_array`, `get_positions_str`, `write_to_csv` (src/utils.cpp) |
| plot.dfy | `Plot` | `parse_filename` (plot.py) |

The main results:

- `Compute.Compute` computes the scan of all offsets in row-major order.
  `Compute.ComputeThreadFunc` computes the same scan over its own rows.
  `Compute.ComputeParallel` returns the fold of the started workers, or the
  sequential scan when none started.
- For `Compute.Compute` and `Compute.ComputeThreadFunc`, every reported
  offset ties with the best value, no offset beats it by more than the
  tolerance, and every offset that scores the best value exactly is
  reported. The list is strictly increasing in row-major order. The
  parallel fold keeps only the ordering for any scores
  (`Compute.ParallelPositionsValid`); the tie claims hold for it under the
  condition on scores below.
- When scores are equal or more than the tolerance apart and lie strictly
  inside plus or minus (DBL_MAX - 1e-10), the parallel result equals the
  sequential one, provided no worker or every worker started.
- Under the same condition on scores, when only some workers start, the
  parallel search returns the scan of the started chunks' rows only. This
  is the behaviour of the code, proved as a lemma. Whatever the scores, it
  reports only offsets of those rows, in strictly increasing order
  (`Compute.ParallelFoldOrdered`).
- With the squared-difference metric the tolerance plays no part: the list
  is exactly the offsets scoring the minimum.
- The parallel squared-difference sum equals the sequential one.
- `read_array` succeeds exactly on well-formed files of the expected shape
  (`Utils.ReadArraySuccess` and `Utils.ReadArrayPasses`), and then appends
  the values in row-major order.
- A file name built from dimensions parses back to them.
- `std::stoi` reads back what `std::to_string` wrote.
- `plot.py`'s `parse_filename` inverts the CSV path that `write_to_csv`
  builds.

Facts about the code that the model keeps:

- The tie test is strict, `|value - best| < 1e-10` (src/compute.cpp:35,48).
- No dimensions are validated before a search. A pattern larger than the
  target has no offsets: the result is the sentinel and an empty list
  (`Compute.SearchNoOffsets`).
- `compute_ssd_parallel` throws `runtime_error` on the first failed thread
  creation, even after some workers started (ssd.cpp:76-79).
- The fold of the workers' results is not the sequential scan when scores
  drift within the tolerance. Three rows scoring 0, 0.6e-10 and 1.2e-10,
  split between two workers, make `compute_parallel` report all three
  offsets, while `compute` reports only the first two
  (`Compute.ParallelTiesDrift`).

Threads become sequential loops over the per-worker records. The core
count the system reports (`cores`) is a parameter. So is the number of
thread creations that succeed (`spawnable`): creation t succeeds exactly
when t < spawnable. Scores are exact reals and the metric is exact integer
arithmetic.

## Model

| member | source | states |
|---|---|---|
| Grid.RowMajorBounds | src/compute.cpp:13-16 | every offset the search loops visit has 0 <= row < max_i and 0 <= col < T_cols - S_cols + 1 |
| Grid.RowMajorComplete | src/compute.cpp:13-16 | every offset of that rectangle is visited |
| Grid.RowMajorIncreasing | src/compute.cpp:13-16 | the loops visit offsets in strictly increasing row-major order |
| Grid.RowMajorSplit | src/compute.cpp:133-147 | scanning rows [lo, hi) is scanning [lo, mid) and then [mid, hi): the basis of cutting rows into chunks |
| Chunking.ChunkStart | src/compute.cpp:144 | start_i = t * chunk_size never exceeds max_i |
| Chunking.ChunkEnd | src/compute.cpp:145 | end_i lies between the chunk's start and max_i |
| Chunking.ChunksTile | src/compute.cpp:133-147 | the first chunk starts at 0, the last ends at max_i, each lies in range, and each starts where the previous one ended |
| Chunking.ChunksTouch | ssd.cpp:69-70 | chunk t starts exactly where chunk t - 1 ends |
| Chunking.ChunksDisjoint | src/compute.cpp:144-145 | an earlier chunk ends no later than a later one starts |
| Chunking.ChunksNonEmpty | src/compute.cpp:126-133 | with no more chunks than items, no chunk is empty |
| Chunking.ChunkOf | src/compute.cpp:133-147 | every item lies in some chunk (no row is skipped) |
| BestSet.ExtremeIndex | src/compute.cpp:27-52 | an element of a non-empty list whose score is at least as good as every other: the exact optimum the rule approximates |
| BestSet.ScanAppend | src/compute.cpp:27-52 | visiting one more offset offers its score to the replace/tie rule |
| BestSet.ScanMembers | src/compute.cpp:33-37 | the tie list holds only offsets that were visited |
| BestSet.ScanTies | src/compute.cpp:35-37 | every listed offset scores within 1e-10 of the best value |
| BestSet.ScanOptimal | src/compute.cpp:29-34 | no visited offset beats the best value by more than 1e-10 |
| BestSet.ScanKeepsExactMatches | src/compute.cpp:27-52 | every visited offset scoring exactly the best value is in the list |
| BestSet.ScanOrdered | src/compute.cpp:33-37 | visiting offsets in increasing order lists them in increasing order, without duplicates |
| BestSet.ScanFirstExact | src/compute.cpp:10-34 | with a non-empty visit list and scores strictly inside plus or minus (DBL_MAX - 1e-10), the list is non-empty and its first offset scores exactly the best value |
| BestSet.ScanIntegerExact | src/compute.cpp:27-52 | with whole-number scores the list is exactly the offsets scoring the best value, in visiting order |
| BestSet.FilterConcat | src/compute.cpp:183-185 | the exact-score list of a concatenation is the concatenation of the lists |
| BestSet.MergeExpected | src/compute.cpp:172-202 | with scores equal or more than the tolerance apart and strictly inside plus or minus (DBL_MAX - 1e-10), folding the exact results of two consecutive parts gives the exact result of the whole |
| BestSet.ScanExpected | src/compute.cpp:27-52 | with separated, admissible scores the scan computes the exact optimum and every offset reaching it |
| Compute.WindowAt | src/compute.cpp:17-25 | the window has S_rows * S_cols elements and element (k, l) is T[(i + k) * T_cols + (j + l)], inside T |
| Compute.ExtractWindow | src/compute.cpp:17-25 | the k/l loops build exactly that window |
| Compute.ScoreAtInside | src/compute.cpp:26 | the score of an offset inside T is the metric of its window against S |
| Compute.UpdateBest | src/compute.cpp:27-52 | both branches of the rule (find_max or not) are the replace/tie rule Merge |
| Compute.ScanCell | src/compute.cpp:17-52 | one inner-loop pass folds offset (i, j) into the result of the offsets before it |
| Compute.RowScanIsScan | src/compute.cpp:15-53 | the column loop's fold over row i equals the scan of the earlier rows followed by row i's first j columns |
| Compute.RowDone | src/compute.cpp:15-53 | after the last column the fold is the scan of rows lo..i |
| Compute.ScanRow | src/compute.cpp:15-53 | the column loop turns the scan of rows lo..i - 1 into the scan of rows lo..i |
| Compute.Compute | src/compute.cpp:4-55 | compute leaves the scan of all offsets, row-major, from the sentinel |
| Compute.ComputeThreadFunc | src/compute.cpp:58-110 | the worker leaves the scan of its rows [start_i, end_i) in its record and changes nothing else |
| Compute.ComputeThreadCount | src/compute.cpp:122-127 | the worker count is at least 1, at most the core count and max_i when those are positive, equal to one of them when both are positive, exactly 1 when the core count is not positive or max_i is 0, and leaves each chunk at least one row |
| Compute.FoldedRows | src/compute.cpp:133-147 | the first count chunks cover rows [0, FoldedRows) within max_i, all of them when count is the thread count |
| Compute.FillThreadData | src/compute.cpp:133-147 | record t gets the inputs and rows [t * chunk_size, (t + 1) * chunk_size), the last up to max_i |
| Compute.RanTask | src/compute.cpp:149-170 | a started and joined worker holds the scan of its chunk |
| Compute.RanTasks | src/compute.cpp:149-170 | every started record holds the scan of its chunk |
| Compute.StartWorkers | src/compute.cpp:149-158 | creation stops at the first failure; the started prefix has run and the rest is untouched |
| Compute.RunWorkers | src/compute.cpp:129-170 | the started count is min(spawnable, threads) and each started record holds its chunk's scan |
| Compute.FoldResults | src/compute.cpp:172-202 | the fold over the started workers, in index order, with the replace/tie rule |
| Compute.ParallelResultCases | src/compute.cpp:160-202 | compute_parallel's result: the sequential scan when no worker started, otherwise the ordered fold |
| Compute.ComputeParallel | src/compute.cpp:113-202 | compute_parallel's outputs are that result, including the fallback to compute |
| Compute.SearchPositionsValid | src/compute.cpp:13-55 | reported offsets lie in the search range, in strictly increasing row-major order |
| Compute.SearchOptimal | src/compute.cpp:27-52 | every reported offset ties with the best value; no offset of the search beats it by more than 1e-10 |
| Compute.RectangleOptimal | src/compute.cpp:13-52 | the same for any score over an m x n rectangle of offsets |
| Compute.SearchKeepsExactMatches | src/compute.cpp:27-52 | every offset scoring the best value exactly is reported |
| Compute.SearchNoOffsets | src/compute.cpp:10-15 | a pattern larger than the target leaves the sentinel and no offsets |
| Compute.SearchFindsSomething | src/compute.cpp:10-52 | when the pattern fits and every score lies strictly inside plus or minus (DBL_MAX - 1e-10), something is reported and the first offset scores the best value exactly |
| Compute.SsdScoresInteger | src/ssd.cpp:11-17 | every squared-difference score of the search is a whole number |
| Compute.SsdSearchExact | src/compute.cpp:42-51 | minimising the squared difference reports exactly the offsets scoring the minimum, in row-major order, and no offset scores lower |
| Compute.ParallelFoldIsScan | src/compute.cpp:172-202 | with scores equal or more than the tolerance apart and strictly inside plus or minus (DBL_MAX - 1e-10), folding the first count chunks equals the sequential scan of the rows they cover |
| Compute.ParallelMatchesCompute | src/compute.cpp:113-202 | with no worker or every worker started, and scores equal or more than 1e-10 apart and strictly inside plus or minus (DBL_MAX - 1e-10), compute_parallel returns what compute returns |
| Compute.ParallelPrefixOnly | src/compute.cpp:149-158 | when only some workers start, and scores are equal or more than 1e-10 apart and strictly inside plus or minus (DBL_MAX - 1e-10), the result is the scan of the started chunks' rows only (without that condition see Compute.ParallelFoldOrdered) |
| Compute.ParallelTiesDrift | src/compute.cpp:172-202 | with scores 0, 0.6e-10 and 1.2e-10 in three rows and two workers, minimising, the fold reports all three offsets and the sequential scan only the first two |
| Compute.ParallelFoldOrdered | src/compute.cpp:172-202 | whatever the scores, the fold lists only offsets of the covered rows, strictly increasing |
| Compute.ParallelPositionsValid | src/compute.cpp:113-202 | whatever the scores and start failures, compute_parallel reports valid offsets in strictly increasing order |
| SsdMetric.ComputeSsd | src/ssd.cpp:4-18 | different sizes throw invalid_argument; otherwise the sum of squared differences, never negative |
| SsdMetric.RangeSsdSplit | ssd.cpp:82-87 | a range sum splits at any midpoint |
| SsdMetric.SsdNonNegative | src/ssd.cpp:11-17 | the metric is never negative and is 0 on empty vectors |
| SsdMetric.SsdSymmetric | src/ssd.cpp:14-15 | swapping the arguments does not change the metric |
| SsdMetric.SsdZeroIffEqual | src/ssd.cpp:11-17 | the metric is 0 exactly when the vectors are equal |
| SsdParallel.SsdThreadCount | ssd.cpp:56-58 | the worker count is between 1 and n / 16 + 1, at most the core count when positive, and leaves each chunk an item; it is 1 when the core count is 0 modulo 2^64, otherwise the core count modulo 2^64 or n / 16 + 1; a sysconf failure (-1) wraps to 2^64 - 1 and gives n / 16 + 1 workers |
| SsdParallel.SsdThreadFunc | ssd.cpp:16-27 | a worker's partial sum is the squared-difference sum over its range |
| SsdParallel.ComputeSsd | ssd.cpp:29-43 | different sizes throw invalid_argument; otherwise the metric |
| SsdParallel.ComputeSsdParallel | ssd.cpp:45-90 | size mismatch throws, n = 0 gives 0, a failed creation throws runtime_error, otherwise the result equals the sequential metric |
| SsdParallel.PartialSumsAddUp | ssd.cpp:82-87 | the partial sums added in chunk order equal the metric over the covered range, and over everything at the end |
| Utils.NatToString | src/utils.cpp:140-141 | std::to_string of a non-negative int: digits only, a leading 0 only for 0 |
| Utils.IntToString | src/utils.cpp:108 | std::to_string of an int: digits and a minus sign only |
| Utils.NatToStringValue | src/utils.cpp:140-141 | the written digits denote the number |
| Utils.TrailingDigits | src/utils.cpp:5 | the longest digit run at the end of a text |
| Utils.LeadingDigits | src/utils.cpp:37 | the longest digit run at the start of a text |
| Utils.Peel | src/utils.cpp:5 | splits a text as before, separator, digit run, and recomposes to it |
| Utils.PeelComposed | src/utils.cpp:5 | Peel undoes the composition |
| Utils.SkipSpace | src/utils.cpp:37 | the white space stoi skips |
| Utils.Stoi | src/utils.cpp:37 | std::stoi: a value within int, or invalid_argument, or out_of_range |
| Utils.StoiDigitRun | src/utils.cpp:37 | a digit run followed by a non-digit reads as its value or is out of range |
| Utils.StoiDigits | src/utils.cpp:9-10 | a digit run alone reads as its value or is out of range |
| Utils.StoiToString | src/utils.cpp:9-10 | stoi reads back what to_string wrote |
| Utils.StoiNoDigits | src/utils.cpp:44-47 | a text without digits is an invalid argument |
| Utils.MatchDims | src/utils.cpp:5-7 | a match of `_(\d+)_(\d+)\.txt$` is a decomposition of the name of that form |
| Utils.MatchDimsComplete | src/utils.cpp:5-7 | every name of that form matches, with exactly its parts |
| Utils.ParseFilename | src/utils.cpp:3-16 | no match throws runtime_error with rows and cols untouched; a match succeeds exactly when both group values fit in int, and success assigns the values of the two groups |
| Utils.ParseFilenameDims | src/utils.cpp:3-16 | a name built from two dimensions within int parses back to them |
| Utils.ParseFilenamePartial | src/utils.cpp:9-10 | a column count beyond int throws out_of_range after rows was already assigned |
| Utils.IndexOf | src/utils.cpp:33 | the first delimiter in a text |
| Utils.IndexOfAfter | src/utils.cpp:33 | the first delimiter after a delimiter-free prefix is right after it |
| Utils.Split | src/utils.cpp:33 | the delimiter-free fields that join back to the text |
| Utils.SplitJoin | src/utils.cpp:33 | splitting undoes joining delimiter-free fields |
| Utils.GetlineSplit | src/utils.cpp:28 | the pieces repeated getline calls return: delimiter-free, none for an empty text |
| Utils.GetlineSplitTerminated | src/utils.cpp:28 | terminated delimiter-free lines come back as they were |
| Utils.ParseCell | src/utils.cpp:35-47 | a token is accepted exactly when stoi reads it as a value in 0..9, and then gives that value |
| Utils.ParseCellErrors | src/utils.cpp:35-47 | invalid_argument becomes the format message, out_of_range escapes, a value outside 0..9 gives the range message |
| Utils.ParseCellDigit | src/utils.cpp:37-42 | a digit, with any trailing non-digit junk, reads as its value; an empty token is a format error |
| Utils.ParseRow | src/utils.cpp:33-48 | a parsed row has one value per token |
| Utils.ParseRowCells | src/utils.cpp:33-48 | a row parses exactly when each token does, and then holds their values in order, each in 0..9 |
| Utils.RowFailsAt | src/utils.cpp:33-48 | the token loop stops at the first failing token with its error |
| Utils.ReadRow | src/utils.cpp:30-48 | the token loop computes ParseRow |
| Utils.LoadNext | src/utils.cpp:28-62 | the line loop handles one more line after the earlier ones |
| Utils.LoadFailSticks | src/utils.cpp:28-62 | after read_array throws, later lines change nothing |
| Utils.LoadWellFormed | src/utils.cpp:28-62 | the line loop finishes without throwing exactly on well-formed lines, and then counts them, takes the first width and collects the values in row-major order |
| Utils.PushAll | src/utils.cpp:57-60 | the copy loop appends the row to the array |
| Utils.ReadArray | src/utils.cpp:18-68 | read_array's exception and array contents, including the values pushed before a later line threw |
| Utils.ReadArrayKeepsPrefix | src/utils.cpp:57-60 | the array's earlier contents stay in front |
| Utils.ReadArraySuccess | src/utils.cpp:18-68 | on success the lines are well formed with the expected shape, and the array grew by rows * cols digit values in row-major order |
| Utils.ReadArrayPasses | src/utils.cpp:18-68 | a file whose lines are well formed and of the expected shape is read without an exception |
| Utils.ReadArrayEmptyFile | src/utils.cpp:49-67 | an empty file leaves cols at -1, so it fails the dimension check |
| Utils.FlattenAppend | src/utils.cpp:57-60 | appending a row appends its values |
| Utils.FlattenShape | src/utils.cpp:49-61 | m rows of equal width flatten to m * width values |
| Utils.FlattenDigits | src/utils.cpp:38-42 | digit rows flatten to digits |
| Utils.GetPositionsStr | src/utils.cpp:103-111 | the loop writes "(row,col) " for each position, in order |
| Utils.PositionsStrConcat | src/utils.cpp:103-111 | the text of a concatenation is the concatenation of the texts |
| Utils.PositionsStrQuotable | src/utils.cpp:163-165 | the text has no quote and no line break, so quoting makes it one CSV field; it is empty only for no positions |
| Utils.ReplaceSlash | src/utils.cpp:139 | every '/' becomes '_' and nothing else changes |
| Utils.CsvPath | src/utils.cpp:137-142 | the CSV path lies directly inside "outputs/" and ends in ".csv" |
| Utils.HeaderOnce | src/utils.cpp:158-161 | the header is written only into an empty file, so once |
| Utils.WriteToCsv | src/utils.cpp:133-175 | the path; a directory failure or an unopenable file throws with nothing written; otherwise header-if-empty plus the quoted record is appended |
| Plot.LastIndexOf | plot.py:11 | the last occurrence of a character, or -1 |
| Plot.LastIndexOfAppend | plot.py:11 | appending text free of the character keeps its last occurrence |
| Plot.Basename | plot.py:11 | os.path.basename: a '/'-free suffix, preceded by '/' unless it is the whole path |
| Plot.SplitextRootShape | plot.py:11 | os.path.splitext's root is a prefix; what it cuts off starts with '.' and holds no other '.' or '/' |
| Plot.SplitextOneExtension | plot.py:11 | a name with one dot-free extension loses exactly that extension |
| Plot.BasenameAfterDir | plot.py:11 | past a directory ending in '/', the base name is the rest |
| Plot.MatchSizes | plot.py:12 | a match of `^(.*?)(?:_(\d+x\d+)_(\d+x\d+))$` is a decomposition of the stem of that form |
| Plot.MatchSizesComplete | plot.py:12 | every stem of that form matches, with exactly its parts |
| Plot.PlotParseRejoins | plot.py:10-15 | both sizes or neither; with sizes, name and sizes joined by '_' give the stem back; without, the name is the stem |
| Plot.PlotParseSizes | plot.py:12-14 | a stem with the sizes at its end yields its parts |
| Plot.PlotParseFindsSizes | plot.py:12-15 | the sizes are found exactly when the stem has the pattern's form |
| Plot.PlotParseCsvPath | plot.py:10-15 | for a data path without '\n' and the path write_to_csv builds from it, parse_filename returns the data path with '/' replaced and the two sizes as "<rows>x<cols>" |

## Left out

- Threads, `pthread_create`/`pthread_join` and the unused mutex are not modelled. Workers run one after another. Each worker's scan touches only its own record, so the order does not change the result.
- The core count from `sysconf` is a parameter. In ssd.cpp it is converted to `size_t` modulo 2^64, as the code does; in src/compute.cpp a count <= 0 becomes 1.
- Which thread creations fail is a parameter: creation t succeeds exactly when t < spawnable.
- SsdParallel.ComputeSsdParallel: when creation fails after some workers started, the code throws without joining them. The model returns the error and does not model the running threads.
- The error text that `compute_parallel` writes to `std::cerr` is not modelled.
- Scores are exact reals and the squared-difference metric is exact integer arithmetic, not `double`. Rounding and summation order are not modelled. The parallel and sequential sums are therefore equal exactly.
- The sentinel `DBL_MAX` is its exact value. Infinities and NaN are not modelled.
- Compute.ComputeParallel: requires S_rows <= T_rows + 1. With a negative max_i the code casts it to a huge `size_t`, which is not modelled.
- Compute.ComputeThreadFunc: returns the updated record instead of writing through a pointer.
- SsdParallel.SsdThreadFunc: returns the partial sum instead of writing `data->ssd` through the record pointer; the caller (`SsdParallel.ComputeSsdParallel`) stores it in the record's `ssd` field, and the record's other fields are its parameters.
- Utils.ReadArray: takes the array's old contents and returns its new contents as values, instead of updating a `std::vector` in place.
- Utils.ReadArray: takes the file contents as a parameter (None when the file cannot be opened). Streams and the "Read ... rows" console line are not modelled.
- Utils.ReadArray: std::getline on a file that ends without a line break is modelled; a `'\r'` before the line break is kept in the last token, as in the code, and stoi ignores it.
- Utils.WriteToCsv: whether "outputs" exists, whether creating it works, and the file's existing contents are parameters. `tellp() == 0` is modelled as "the file is empty".
- Utils.WriteToCsv: the `std::fixed`/`setprecision` texts of best_value and time are passed in as strings.
- Utils.Stoi: the `what()` text of std::stoi's exceptions is written as "stoi"; implementations differ.
- Int overflow of `S_rows * S_cols` or `(i + k) * T_cols + (j + l)` is not modelled.
- SsdMetric.ComputeSsd: `X[i] - Y[i]` is an `int` subtraction (src/ssd.cpp:14) that overflows when the operands are about 2^31 apart; the model subtracts unbounded integers. Values read by `read_array` lie in 0..9, so no overflow occurs on the program's own inputs.
- SsdParallel.SsdThreadFunc: the same `int` subtraction (ssd.cpp:22) is modelled on unbounded integers.
- SsdParallel.ComputeSsd: the same `int` subtraction (ssd.cpp:39) is modelled on unbounded integers.
- SsdParallel.ComputeSsdParallel: its partial sums use the same unbounded subtraction.
- Compute.SsdScore: returns 0.0 when the window and the pattern differ in size, where `compute_ssd` throws `invalid_argument` (src/ssd.cpp:7-10). That branch is unreachable when |S| == S_rows * S_cols, which `read_arrays` ensures before every search; the lemmas about it require that size.
- Compute.Compute: the metric is a total function, so a metric that throws is not modelled. In `compute` such an exception would propagate to the caller (src/compute.cpp:26).
- Compute.ComputeThreadFunc: a metric throwing inside a worker thread would end the process (src/compute.cpp:78); not modelled, as above.
- Plot.MatchSizes: `\d` is modelled as the ASCII digits 0-9. Python also matches other Unicode decimal digits.
- `find_files`, `read_arrays`, `display_results`, `main.cpp`, the PCC metric and the plotting part of `plot.py` are not part of this model.
- Some members split one source loop into smaller steps, for proof: UpdateBest, ScanCell, ScanRow, FillThreadData, StartWorkers, RunWorkers, FoldResults, ReadRow, PushAll. Each states what its part of the loop computes.

=== FILE: best_set.dfy ===
/** The running best score and its tie list, and the single replace/tie
    rule that both the offset-by-offset scan and the fold of per-worker
    results apply. Scores are exact reals. */
module BestSet {
  import opened Grid

  /** Tolerance of the tie test and of "strictly better". */
  const Epsilon: real := 0.0000000001

  /** The largest finite double, 2^1024 - 2^971: the starting sentinel. */
  const DblMax: real := 179769313486231570814527423731704356798070567525844996598917476803157260780028538760589558632766878171540458953514382464234321326889464182768467546703537516986049910576551282076245490090389328944075868508455133942304583236903222948165808559332123348274797826204144723168738177180919299881250404026184124858368.0

  /** A best score and the offsets that achieve it, in the order found. */
  datatype Best = Best(value: real, positions: seq<Position>)

  function Abs(x: real): real
  {
    if x < 0.0 then -x else x
  }

  /** Where the best value starts: -DBL_MAX when maximising, DBL_MAX when minimising. */
  function Sentinel(findMax: bool): real
  {
    if findMax then -DblMax else DblMax
  }

  function Initial(findMax: bool): Best
  {
    Best(Sentinel(findMax), [])
  }

  /** `x` beats `than` by more than the tolerance, in the search direction. */
  predicate Better(findMax: bool, x: real, than: real)
  {
    if findMax then x > than + Epsilon else x < than - Epsilon
  }

  /** `x` and `y` are closer than the tolerance. */
  predicate Ties(x: real, y: real)
  {
    Abs(x - y) < Epsilon
  }

  /** The replace/tie rule: a strictly better candidate replaces the best
      value and its list; one within the tolerance appends its offsets and
      keeps the best value; anything else is dropped. */
  function Merge(findMax: bool, acc: Best, candidate: Best): Best
  {
    if Better(findMax, candidate.value, acc.value) then candidate
    else if Ties(candidate.value, acc.value) then Best(acc.value, acc.positions + candidate.positions)
    else acc
  }

  /** The result of visiting the offsets `ps` in order from the sentinel,
      offering each offset with its score to the rule. */
  function Scan(findMax: bool, ps: seq<Position>, score: Position -> real): Best
    decreases |ps|
  {
    if ps == [] then Initial(findMax)
    else Merge(findMax, Scan(findMax, ps[..|ps| - 1], score), Best(score(ps[|ps| - 1]), [ps[|ps| - 1]]))
  }

  /** Every score lies strictly inside the sentinels, beyond the tolerance
      (for doubles: every finite value other than plus or minus DBL_MAX). */
  predicate Admissible(ps: seq<Position>, score: Position -> real)
  {
    forall p :: p in ps ==> -DblMax + Epsilon < score(p) < DblMax - Epsilon
  }

  /** Any two scores are equal or more than the tolerance apart. */
  predicate Separated(ps: seq<Position>, score: Position -> real)
  {
    forall p, q :: p in ps && q in ps ==> score(p) == score(q) || Abs(score(p) - score(q)) > Epsilon
  }

  predicate IsInteger(x: real)
  {
    x.Floor as real == x
  }

  /** Every score is a whole number, as with the squared-difference metric. */
  predicate IntegerValued(ps: seq<Position>, score: Position -> real)
  {
    forall p :: p in ps ==> IsInteger(score(p))
  }

  /** `e` is at least as good as `x` in the search direction. */
  predicate Dominates(findMax: bool, e: real, x: real)
  {
    if findMax then x <= e else x >= e
  }

  /** The offsets of `ps` whose score is exactly `v`, in their order. */
  function Filter(ps: seq<Position>, score: Position -> real, v: real): seq<Position>
    decreases |ps|
  {
    if ps == [] then []
    else Filter(ps[..|ps| - 1], score, v) + (if score(ps[|ps| - 1]) == v then [ps[|ps| - 1]] else [])
  }

  /** Index of an offset with the exact best score of a non-empty list. */
  function ExtremeIndex(findMax: bool, ps: seq<Position>, score: Position -> real): (k: nat)
    requires ps != []
    ensures k < |ps|
    ensures forall j :: 0 <= j < |ps| ==> Dominates(findMax, score(ps[k]), score(ps[j]))
    decreases |ps|
  {
    if |ps| == 1 then 0
    else
      var rest := ExtremeIndex(findMax, ps[..|ps| - 1], score);
      assert forall j :: 0 <= j < |ps| - 1 ==> ps[..|ps| - 1][j] == ps[j];
      var last := score(ps[|ps| - 1]);
      if (if findMax then last > score(ps[rest]) else last < score(ps[rest])) then |ps| - 1 else rest
  }

  /** The exact best score over a non-empty list. */
  function Extreme(findMax: bool, ps: seq<Position>, score: Position -> real): real
    requires ps != []
  {
    score(ps[ExtremeIndex(findMax, ps, score)])
  }

  /** What an exact search returns: the exact best score and every offset
      achieving it, or the sentinel and no offsets when there is nothing to scan. */
  function Expected(findMax: bool, ps: seq<Position>, score: Position -> real): Best
  {
    if ps == [] then Initial(findMax)
    else
      var e := Extreme(findMax, ps, score);
      Best(e, Filter(ps, score, e))
  }

  lemma LastSplit(ps: seq<Position>)
    requires ps != []
    ensures ps == ps[..|ps| - 1] + [ps[|ps| - 1]]
    ensures forall q :: q in ps[..|ps| - 1] ==> q in ps
  {
  }

  /** Scanning one more offset offers it to the rule. */
  lemma ScanAppend(findMax: bool, ps: seq<Position>, p: Position, score: Position -> real)
    ensures Scan(findMax, ps + [p], score) == Merge(findMax, Scan(findMax, ps, score), Best(score(p), [p]))
  {
    assert (ps + [p])[..|ps|] == ps;
  }

  /** The result lists only offsets that were scanned. */
  lemma {:induction false} ScanMembers(findMax: bool, ps: seq<Position>, score: Position -> real)
    ensures forall q :: q in Scan(findMax, ps, score).positions ==> q in ps
    decreases |ps|
  {
    if ps != [] {
      ScanMembers(findMax, ps[..|ps| - 1], score);
      LastSplit(ps);
    }
  }

  /** Every listed offset scores within the tolerance of the best value. */
  lemma {:induction false} ScanTies(findMax: bool, ps: seq<Position>, score: Position -> real)
    ensures forall q :: q in Scan(findMax, ps, score).positions ==> Ties(score(q), Scan(findMax, ps, score).value)
    decreases |ps|
  {
    if ps != [] {
      ScanTies(findMax, ps[..|ps| - 1], score);
    }
  }

  /** No scanned offset beats the best value by more than the tolerance. */
  lemma {:induction false} ScanOptimal(findMax: bool, ps: seq<Position>, score: Position -> real)
    ensures forall p :: p in ps ==> !Better(findMax, score(p), Scan(findMax, ps, score).value)
    decreases |ps|
  {
    if ps != [] {
      ScanOptimal(findMax, ps[..|ps| - 1], score);
      LastSplit(ps);
    }
  }

  /** Every scanned offset whose score equals the best value exactly is listed. */
  lemma {:induction false} ScanKeepsExactMatches(findMax: bool, ps: seq<Position>, score: Position -> real)
    ensures forall p :: p in ps && score(p) == Scan(findMax, ps, score).value ==> p in Scan(findMax, ps, score).positions
    decreases |ps|
  {
    if ps != [] {
      var pre := ps[..|ps| - 1];
      ScanKeepsExactMatches(findMax, pre, score);
      ScanOptimal(findMax, pre, score);
      LastSplit(ps);
    }
  }

  /** Scanning offsets in strictly increasing order lists them in strictly
      increasing order, so without duplicates. */
  lemma {:induction false} ScanOrdered(findMax: bool, ps: seq<Position>, score: Position -> real)
    requires StrictlyIncreasing(ps)
    ensures StrictlyIncreasing(Scan(findMax, ps, score).positions)
    decreases |ps|
  {
    if ps != [] {
      var pre := ps[..|ps| - 1];
      var p := ps[|ps| - 1];
      ScanOrdered(findMax, pre, score);
      ScanMembers(findMax, pre, score);
      var r := Scan(findMax, pre, score);
      forall q | q in r.positions
        ensures Before(q, p)
      {
        var k :| 0 <= k < |pre| && pre[k] == q;
      }
      IncreasingConcat(r.positions, [p]);
    }
  }

  /** With admissible scores and something to scan, the list is non-empty
      and its first offset scores exactly the best value. */
  lemma {:induction false} ScanFirstExact(findMax: bool, ps: seq<Position>, score: Position -> real)
    requires ps != [] && Admissible(ps, score)
    ensures Scan(findMax, ps, score).positions != []
    ensures score(Scan(findMax, ps, score).positions[0]) == Scan(findMax, ps, score).value
    decreases |ps|
  {
    var pre := ps[..|ps| - 1];
    LastSplit(ps);
    if pre != [] {
      ScanFirstExact(findMax, pre, score);
    }
  }

  lemma IntegersTie(x: real, y: real)
    requires IsInteger(x) && IsInteger(y) && Ties(x, y)
    ensures x == y
  {
    var d := x.Floor - y.Floor;
    assert x - y == d as real;
  }

  lemma {:induction false} FilterNone(ps: seq<Position>, score: Position -> real, v: real)
    requires forall p :: p in ps ==> score(p) != v
    ensures Filter(ps, score, v) == []
    decreases |ps|
  {
    if ps != [] {
      LastSplit(ps);
      FilterNone(ps[..|ps| - 1], score, v);
    }
  }

  /** For whole-number scores the list is exactly the offsets scoring the
      best value, in scan order. */
  lemma {:induction false} ScanIntegerExact(findMax: bool, ps: seq<Position>, score: Position -> real)
    requires IntegerValued(ps, score)
    ensures IsInteger(Scan(findMax, ps, score).value)
    ensures Scan(findMax, ps, score).positions == Filter(ps, score, Scan(findMax, ps, score).value)
    decreases |ps|
  {
    if ps != [] {
      var pre := ps[..|ps| - 1];
      var p := ps[|ps| - 1];
      LastSplit(ps);
      ScanIntegerExact(findMax, pre, score);
      var r := Scan(findMax, pre, score);
      var s := score(p);
      if Better(findMax, s, r.value) {
        ScanOptimal(findMax, pre, score);
        FilterNone(pre, score, s);
      } else if Ties(s, r.value) {
        IntegersTie(s, r.value);
      }
    }
  }

  /** A score that some element achieves and that dominates every element
      is the extreme. */
  lemma ExtremeUnique(findMax: bool, ps: seq<Position>, score: Position -> real, k: nat)
    requires k < |ps|
    requires forall j :: 0 <= j < |ps| ==> Dominates(findMax, score(ps[k]), score(ps[j]))
    ensures Extreme(findMax, ps, score) == score(ps[k])
  {
    var j := ExtremeIndex(findMax, ps, score);
    assert Dominates(findMax, score(ps[j]), score(ps[k]));
  }

  /** Filtering distributes over concatenation. */
  lemma {:induction false} FilterConcat(a: seq<Position>, b: seq<Position>, score: Position -> real, v: real)
    ensures Filter(a + b, score, v) == Filter(a, score, v) + Filter(b, score, v)
    decreases |b|
  {
    if b == [] {
      assert a + b == a;
    } else {
      var b' := b[..|b| - 1];
      FilterConcat(a, b', score, v);
      assert (a + b)[..|a + b| - 1] == a + b';
      assert (a + b)[|a + b| - 1] == b[|b| - 1];
    }
  }

  /** Separation and admissibility carry over to the parts of a list. */
  lemma PartsInherit(a: seq<Position>, b: seq<Position>, score: Position -> real)
    requires Separated(a + b, score) && Admissible(a + b, score)
    ensures Separated(a, score) && Admissible(a, score)
    ensures Separated(b, score) && Admissible(b, score)
  {
    assert forall q :: q in a ==> q in a + b;
    assert forall q :: q in b ==> q in a + b;
  }

  /** A value dominating both parts dominates their concatenation. */
  lemma DominatesConcat(findMax: bool, a: seq<Position>, b: seq<Position>, score: Position -> real, e: real)
    requires forall j :: 0 <= j < |a| ==> Dominates(findMax, e, score(a[j]))
    requires forall j :: 0 <= j < |b| ==> Dominates(findMax, e, score(b[j]))
    ensures forall j :: 0 <= j < |a + b| ==> Dominates(findMax, e, score((a + b)[j]))
  {
    forall j | 0 <= j < |a + b|
      ensures Dominates(findMax, e, score((a + b)[j]))
    {
      if j >= |a| { assert (a + b)[j] == b[j - |a|]; }
    }
  }

  /** The extreme of a concatenation of two non-empty parts, when the
      extreme of `a` dominates that of `b`. */
  lemma ExtremeConcatLeft(findMax: bool, a: seq<Position>, b: seq<Position>, score: Position -> real)
    requires a != [] && b != []
    requires Dominates(findMax, Extreme(findMax, a, score), Extreme(findMax, b, score))
    ensures Extreme(findMax, a + b, score) == Extreme(findMax, a, score)
  {
    var va := Extreme(findMax, a, score);
    var ka := ExtremeIndex(findMax, a, score);
    DominatesConcat(findMax, a, b, score, va);
    assert (a + b)[ka] == a[ka];
    ExtremeUnique(findMax, a + b, score, ka);
  }

  /** The same, when the extreme of `b` dominates that of `a`. */
  lemma ExtremeConcatRight(findMax: bool, a: seq<Position>, b: seq<Position>, score: Position -> real)
    requires a != [] && b != []
    requires Dominates(findMax, Extreme(findMax, b, score), Extreme(findMax, a, score))
    ensures Extreme(findMax, a + b, score) == Extreme(findMax, b, score)
  {
    var vb := Extreme(findMax, b, score);
    var kb := ExtremeIndex(findMax, b, score);
    DominatesConcat(findMax, a, b, score, vb);
    assert (a + b)[|a| + kb] == b[kb];
    ExtremeUnique(findMax, a + b, score, |a| + kb);
  }

  /** Extremes of non-empty parts are scores of the whole list. */
  lemma ExtremesSeparated(findMax: bool, a: seq<Position>, b: seq<Position>, score: Position -> real)
    requires a != [] && b != [] && Separated(a + b, score)
    ensures var va, vb := Extreme(findMax, a, score), Extreme(findMax, b, score);
            va == vb || Abs(va - vb) > Epsilon
  {
    var va := Extreme(findMax, a, score);
    var vb := Extreme(findMax, b, score);
    var ka := ExtremeIndex(findMax, a, score);
    var kb := ExtremeIndex(findMax, b, score);
    SeparatedPair(a + b, score, a[ka], b[kb]);
  }

  lemma SeparatedPair(ps: seq<Position>, score: Position -> real, p: Position, q: Position)
    requires Separated(ps, score) && p in ps && q in ps
    ensures score(p) == score(q) || Abs(score(p) - score(q)) > Epsilon
  {
  }

  /** An admissible score always beats the sentinel. */
  lemma BeatsSentinel(findMax: bool, ps: seq<Position>, score: Position -> real)
    requires ps != [] && Admissible(ps, score)
    ensures Better(findMax, Extreme(findMax, ps, score), Sentinel(findMax))
    ensures !Better(findMax, Sentinel(findMax), Extreme(findMax, ps, score))
    ensures !Ties(Sentinel(findMax), Extreme(findMax, ps, score))
  {
    var k := ExtremeIndex(findMax, ps, score);
    assert ps[k] in ps;
  }

  lemma MergeWithEmpty(findMax: bool, a: seq<Position>, b: seq<Position>, score: Position -> real)
    requires a == [] || b == []
    requires Admissible(a, score) && Admissible(b, score)
    ensures Merge(findMax, Expected(findMax, a, score), Expected(findMax, b, score)) == Expected(findMax, a + b, score)
  {
    if a == [] {
      assert a + b == b;
      if b != [] {
        BeatsSentinel(findMax, b, score);
      }
    } else {
      assert a + b == a;
      BeatsSentinel(findMax, a, score);
    }
  }

  lemma MergeBetter(findMax: bool, a: seq<Position>, b: seq<Position>, score: Position -> real)
    requires a != [] && b != []
    requires Better(findMax, Extreme(findMax, b, score), Extreme(findMax, a, score))
    ensures Merge(findMax, Expected(findMax, a, score), Expected(findMax, b, score)) == Expected(findMax, a + b, score)
  {
    var vb := Extreme(findMax, b, score);
    ExtremeConcatRight(findMax, a, b, score);
    FilterConcat(a, b, score, vb);
    FilterNone(a, score, vb);
  }

  lemma MergeNotBetter(findMax: bool, a: seq<Position>, b: seq<Position>, score: Position -> real)
    requires a != [] && b != [] && Separated(a + b, score)
    requires !Better(findMax, Extreme(findMax, b, score), Extreme(findMax, a, score))
    ensures Merge(findMax, Expected(findMax, a, score), Expected(findMax, b, score)) == Expected(findMax, a + b, score)
  {
    var va := Extreme(findMax, a, score);
    var vb := Extreme(findMax, b, score);
    ExtremesSeparated(findMax, a, b, score);
    ExtremeConcatLeft(findMax, a, b, score);
    FilterConcat(a, b, score, va);
    if !Ties(vb, va) {
      FilterNone(b, score, va);
    }
  }

  /** When scores are separated by more than the tolerance and admissible,
      merging the exact results of two consecutive parts gives the exact
      result of the whole: the tolerance never changes what is kept. */
  lemma MergeExpected(findMax: bool, a: seq<Position>, b: seq<Position>, score: Position -> real)
    requires Separated(a + b, score) && Admissible(a + b, score)
    ensures Merge(findMax, Expected(findMax, a, score), Expected(findMax, b, score)) == Expected(findMax, a + b, score)
  {
    PartsInherit(a, b, score);
    if a == [] || b == [] {
      MergeWithEmpty(findMax, a, b, score);
    } else if Better(findMax, Extreme(findMax, b, score), Extreme(findMax, a, score)) {
      MergeBetter(findMax, a, b, score);
    } else {
      MergeNotBetter(findMax, a, b, score);
    }
  }

  /** With separated, admissible scores the scan computes the exact result. */
  lemma {:induction false} ScanExpected(findMax: bool, ps: seq<Position>, score: Position -> real)
    requires Separated(ps, score) && Admissible(ps, score)
    ensures Scan(findMax, ps, score) == Expected(findMax, ps, score)
    decreases |ps|
  {
    if ps != [] {
      var pre := ps[..|ps| - 1];
      var p := ps[|ps| - 1];
      LastSplit(ps);
      PartsInherit(pre, [p], score);
      ScanExpected(findMax, pre, score);
      assert Filter([p], score, score(p)) == [p] by {
        assert [p][..0] == [];
      }
      MergeExpected(findMax, pre, [p], score);
    }
  }
}

=== FILE: chunking.dfy ===
/** The contiguous partition both parallel entry points use: `n` items are
    split into `k` chunks of `n / k` items, and the last chunk also takes
    the remainder. */
module Chunking {

  /** First item of chunk `t`. */
  function ChunkStart(n: nat, k: nat, t: nat): (s: nat)
    requires 1 <= k && t < k
    ensures s <= n
  {
    MulLeft(t, k, n / k);
    t * (n / k)
  }

  /** One past the last item of chunk `t`. */
  function ChunkEnd(n: nat, k: nat, t: nat): (e: nat)
    requires 1 <= k && t < k
    ensures ChunkStart(n, k, t) <= e <= n
  {
    MulLeft(t, t + 1, n / k);
    MulLeft(t + 1, k, n / k);
    if t == k - 1 then n else (t + 1) * (n / k)
  }

  lemma MulLeft(a: nat, b: nat, c: nat)
    requires a <= b
    ensures a * c <= b * c
  {
  }

  /** At most n chunks of n items leave each chunk at least one item. */
  lemma QuotientPositive(n: nat, k: nat)
    requires 1 <= k <= n
    ensures n / k >= 1
  {
  }

  /** Each chunk after the first starts where the previous one ended. */
  lemma ChunksTouch(n: nat, k: nat, t: nat)
    requires 1 <= k && 0 < t < k
    ensures ChunkStart(n, k, t) == ChunkEnd(n, k, t - 1)
  {
  }

  /** Chunks are ordered, each lies inside [0, n), neighbours touch,
      the first starts at 0 and the last ends at n. */
  lemma ChunksTile(n: nat, k: nat)
    requires 1 <= k
    ensures ChunkStart(n, k, 0) == 0 && ChunkEnd(n, k, k - 1) == n
    ensures forall t :: 0 <= t < k ==> ChunkStart(n, k, t) <= ChunkEnd(n, k, t) <= n
    ensures forall t :: 0 < t < k ==> ChunkStart(n, k, t) == ChunkEnd(n, k, t - 1)
  {
  }

  /** When there are at least as many items as chunks, no chunk is empty. */
  lemma {:induction false} ChunksNonEmpty(n: nat, k: nat, t: nat)
    requires 1 <= k <= n && t < k
    ensures ChunkStart(n, k, t) < ChunkEnd(n, k, t)
  {
    var c := n / k;
    assert c >= 1;
    assert (t + 1) * c == t * c + c;
    MulLeft(t + 1, k, c);
    assert k * c <= n;
  }

  /** Chunks never overlap: an earlier chunk ends before a later one starts. */
  lemma ChunksDisjoint(n: nat, k: nat, t: nat, u: nat)
    requires 1 <= k && t < u < k
    ensures ChunkEnd(n, k, t) <= ChunkStart(n, k, u)
  {
    MulLeft(t + 1, u, n / k);
  }

  lemma DivBounds(x: nat, c: nat)
    requires c > 0
    ensures (x / c) * c <= x < (x / c) * c + c
  {
  }

  /** The chunk that holds item `x`: every item of [0, n) lies in one. */
  function ChunkOf(n: nat, k: nat, x: nat): (t: nat)
    requires 1 <= k && x < n
    ensures t < k && ChunkStart(n, k, t) <= x < ChunkEnd(n, k, t)
  {
    var c := n / k;
    if c == 0 then
      k - 1
    else if x / c >= k - 1 then
      DivBounds(x, c);
      MulLeft(k - 1, x / c, c);
      k - 1
    else
      DivBounds(x, c);
      x / c
  }
}

=== FILE: compute.dfy ===
/** The windowed search engine of src/compute.cpp: slide the pattern S over
    the target T (both flat, row-major), score every window with a
    caller-supplied metric, and keep the best score with its tie list. */
module Compute {
  import opened Grid
  import opened BestSet
  import opened Chunking
  import SsdMetric

  /** The window at (i, j) lies inside T and T has the declared shape. */
  predicate Fits(T: seq<int>, sRows: int, sCols: int, tRows: int, tCols: int, i: int, j: int)
  {
    && 0 <= sRows && 0 <= sCols && 0 <= tRows && 0 <= tCols
    && |T| == tRows * tCols
    && 0 <= i && i + sRows <= tRows
    && 0 <= j && j + sCols <= tCols
  }

  /** Row r, columns [j, j + w), of a tRows x tCols array lies inside it. */
  lemma RowInside(tRows: int, tCols: int, r: int, j: int, w: int)
    requires 0 <= r < tRows && 0 <= j && 0 <= w && j + w <= tCols
    ensures 0 <= r * tCols + j && r * tCols + j + w <= tRows * tCols
  {
    MulLeft(r + 1, tRows, tCols);
    assert (r + 1) * tCols == r * tCols + tCols;
  }

  /** The first `k` rows of the window at (i, j), row after row. */
  function WindowRows(T: seq<int>, sCols: int, tRows: int, tCols: int, i: int, j: int, k: int): seq<int>
    requires 0 <= sCols && 0 <= tRows && 0 <= tCols && |T| == tRows * tCols
    requires 0 <= i && 0 <= k && i + k <= tRows && 0 <= j && j + sCols <= tCols
    decreases k
  {
    if k == 0 then []
    else
      RowInside(tRows, tCols, i + k - 1, j, sCols);
      var base := (i + k - 1) * tCols + j;
      WindowRows(T, sCols, tRows, tCols, i, j, k - 1) + T[base..base + sCols]
  }

  /** The S-sized window of T at offset (i, j), in row-major order. */
  function Window(T: seq<int>, sRows: int, sCols: int, tRows: int, tCols: int, i: int, j: int): seq<int>
    requires Fits(T, sRows, sCols, tRows, tCols, i, j)
  {
    WindowRows(T, sCols, tRows, tCols, i, j, sRows)
  }

  /** Element (r, c) of a row-major array `width` elements wide. */
  function Cell(a: seq<int>, width: int, r: int, c: int): int
    requires 0 <= r * width + c < |a|
  {
    a[r * width + c]
  }

  /** Appending row k - 1 keeps the earlier rows' cells and places the new
      row's cells after them. */
  lemma WindowRowsStep(T: seq<int>, sCols: int, tRows: int, tCols: int, i: int, j: int, k: int, r: int, l: int)
    requires 0 <= sCols && 0 <= tRows && 0 <= tCols && |T| == tRows * tCols
    requires 0 < k && 0 <= i && i + k <= tRows && 0 <= j && j + sCols <= tCols
    requires |WindowRows(T, sCols, tRows, tCols, i, j, k - 1)| == (k - 1) * sCols
    requires 0 <= r < k && 0 <= l < sCols
    requires r < k - 1 ==>
               && r * sCols + l < (k - 1) * sCols
               && 0 <= (i + r) * tCols + (j + l) < |T|
               && Cell(WindowRows(T, sCols, tRows, tCols, i, j, k - 1), sCols, r, l) == Cell(T, tCols, i + r, j + l)
    ensures |WindowRows(T, sCols, tRows, tCols, i, j, k)| == k * sCols
    ensures && 0 <= r * sCols + l < k * sCols
            && 0 <= (i + r) * tCols + (j + l) < |T|
            && Cell(WindowRows(T, sCols, tRows, tCols, i, j, k), sCols, r, l) == Cell(T, tCols, i + r, j + l)
  {
    RowInside(tRows, tCols, i + k - 1, j, sCols);
    var base := (i + k - 1) * tCols + j;
    var prev := WindowRows(T, sCols, tRows, tCols, i, j, k - 1);
    assert WindowRows(T, sCols, tRows, tCols, i, j, k) == prev + T[base..base + sCols];
    assert k * sCols == (k - 1) * sCols + sCols;
    RowInside(tRows, tCols, i + r, j, sCols);
    MulLeft(0, r, sCols);
    if r == k - 1 {
      assert r * sCols + l == (k - 1) * sCols + l;
    }
  }

  lemma {:induction false} WindowRowsLength(T: seq<int>, sCols: int, tRows: int, tCols: int, i: int, j: int, k: int)
    requires 0 <= sCols && 0 <= tRows && 0 <= tCols && |T| == tRows * tCols
    requires 0 <= i && 0 <= k && i + k <= tRows && 0 <= j && j + sCols <= tCols
    ensures |WindowRows(T, sCols, tRows, tCols, i, j, k)| == k * sCols
    decreases k
  {
    if k > 0 {
      WindowRowsLength(T, sCols, tRows, tCols, i, j, k - 1);
      RowInside(tRows, tCols, i + k - 1, j, sCols);
      var base := (i + k - 1) * tCols + j;
      assert WindowRows(T, sCols, tRows, tCols, i, j, k)
          == WindowRows(T, sCols, tRows, tCols, i, j, k - 1) + T[base..base + sCols];
      assert k * sCols == (k - 1) * sCols + sCols;
    }
  }

  lemma {:induction false} WindowRowsCell(T: seq<int>, sCols: int, tRows: int, tCols: int, i: int, j: int, k: int, r: int, l: int)
    requires 0 <= sCols && 0 <= tRows && 0 <= tCols && |T| == tRows * tCols
    requires 0 <= i && 0 <= k && i + k <= tRows && 0 <= j && j + sCols <= tCols
    requires 0 <= r < k && 0 <= l < sCols
    ensures |WindowRows(T, sCols, tRows, tCols, i, j, k)| == k * sCols
    ensures && 0 <= r * sCols + l < k * sCols
            && 0 <= (i + r) * tCols + (j + l) < |T|
            && Cell(WindowRows(T, sCols, tRows, tCols, i, j, k), sCols, r, l) == Cell(T, tCols, i + r, j + l)
    decreases k
  {
    WindowRowsLength(T, sCols, tRows, tCols, i, j, k - 1);
    if r < k - 1 {
      WindowRowsCell(T, sCols, tRows, tCols, i, j, k - 1, r, l);
    }
    WindowRowsStep(T, sCols, tRows, tCols, i, j, k, r, l);
  }

  /** Element (k, l) of the window w is element (i + k, j + l) of T, and
      both indices lie inside their arrays. */
  predicate CellMatches(w: seq<int>, T: seq<int>, sCols: int, tCols: int, i: int, j: int, k: int, l: int)
  {
    && 0 <= k * sCols + l < |w|
    && 0 <= (i + k) * tCols + (j + l) < |T|
    && Cell(w, sCols, k, l) == Cell(T, tCols, i + k, j + l)
  }

  lemma WindowCell(T: seq<int>, sRows: int, sCols: int, tRows: int, tCols: int, i: int, j: int, k: int, l: int)
    requires Fits(T, sRows, sCols, tRows, tCols, i, j)
    requires 0 <= k < sRows && 0 <= l < sCols
    ensures CellMatches(Window(T, sRows, sCols, tRows, tCols, i, j), T, sCols, tCols, i, j, k, l)
  {
    WindowRowsCell(T, sCols, tRows, tCols, i, j, sRows, k, l);
  }

  /** The window has S_rows * S_cols elements, and element (k, l) of it is
      element (i + k, j + l) of T. */
  lemma WindowAt(T: seq<int>, sRows: int, sCols: int, tRows: int, tCols: int, i: int, j: int)
    requires Fits(T, sRows, sCols, tRows, tCols, i, j)
    ensures |Window(T, sRows, sCols, tRows, tCols, i, j)| == sRows * sCols
    ensures forall k, l :: 0 <= k < sRows && 0 <= l < sCols ==>
              CellMatches(Window(T, sRows, sCols, tRows, tCols, i, j), T, sCols, tCols, i, j, k, l)
  {
    WindowRowsLength(T, sCols, tRows, tCols, i, j, sRows);
    forall k, l | 0 <= k < sRows && 0 <= l < sCols
      ensures CellMatches(Window(T, sRows, sCols, tRows, tCols, i, j), T, sCols, tCols, i, j, k, l)
    {
      WindowCell(T, sRows, sCols, tRows, tCols, i, j, k, l);
    }
  }

  /** Copies the window at (i, j) out of T, row by row (the k/l loops). */
  method ExtractWindow(T: seq<int>, sRows: int, sCols: int, tRows: int, tCols: int, i: int, j: int)
    returns (subT: seq<int>)
    requires Fits(T, sRows, sCols, tRows, tCols, i, j)
    ensures subT == Window(T, sRows, sCols, tRows, tCols, i, j)
  {
    subT := [];
    var k := 0;
    while k < sRows
      invariant 0 <= k <= sRows
      invariant subT == WindowRows(T, sCols, tRows, tCols, i, j, k)
    {
      RowInside(tRows, tCols, i + k, j, sCols);
      var base := (i + k) * tCols + j;
      var l := 0;
      while l < sCols
        invariant 0 <= l <= sCols
        invariant subT == WindowRows(T, sCols, tRows, tCols, i, j, k) + T[base..base + l]
      {
        subT := subT + [T[(i + k) * tCols + (j + l)]];
        l := l + 1;
      }
      k := k + 1;
    }
  }

  /** The score of an offset: the metric of its window (passed first)
      against S (passed second). Offsets outside the target never reach
      the metric; they get 0.0 so that the score function is total. */
  function ScoreAt(metric: (seq<int>, seq<int>) -> real, S: seq<int>, T: seq<int>,
                   sRows: int, sCols: int, tRows: int, tCols: int): Position -> real
  {
    (p: Position) => if Fits(T, sRows, sCols, tRows, tCols, p.row, p.col)
         then metric(Window(T, sRows, sCols, tRows, tCols, p.row, p.col), S)
         else 0.0
  }

  /** All offsets, 0 <= i <= T_rows - S_rows and 0 <= j <= T_cols - S_cols,
      in the row-major order of the search loops. */
  function Offsets(sRows: int, sCols: int, tRows: int, tCols: int): seq<Position>
  {
    RowMajor(0, tRows - sRows + 1, tCols - sCols + 1)
  }

  /** The score the loops compute at an offset inside the target. */
  lemma ScoreAtInside(metric: (seq<int>, seq<int>) -> real, S: seq<int>, T: seq<int>,
                      sRows: int, sCols: int, tRows: int, tCols: int, i: int, j: int)
    requires 0 <= sRows && 0 <= sCols && 0 <= tRows && 0 <= tCols && |T| == tRows * tCols
    requires 0 <= i <= tRows - sRows && 0 <= j <= tCols - sCols
    ensures Fits(T, sRows, sCols, tRows, tCols, i, j)
    ensures ScoreAt(metric, S, T, sRows, sCols, tRows, tCols)(Position(i, j))
            == metric(Window(T, sRows, sCols, tRows, tCols, i, j), S)
  {
  }

  /** The best set after the loops have offered columns 0..j - 1 of row i,
      having started from the scan of rows lo..i - 1: the column loop's
      fold, one offset at a time. */
  function RowScan(findMax: bool, score: Position -> real, lo: int, i: int, j: nat, n: int): Best
    decreases j
  {
    if j == 0 then Scan(findMax, RowMajor(lo, i, n), score)
    else Merge(findMax, RowScan(findMax, score, lo, i, j - 1, n), Best(score(Position(i, j - 1)), [Position(i, j - 1)]))
  }

  /** Column j - 1 of row i is the last offset visited before column j. */
  lemma RowSnoc(lo: int, i: int, j: int, n: int)
    requires j > 0
    ensures RowMajor(lo, i, n) + Row(i, j) == (RowMajor(lo, i, n) + Row(i, j - 1)) + [Position(i, j - 1)]
  {
  }

  /** The column fold is the scan of the rows before i followed by the
      first j columns of row i. */
  lemma {:induction false} RowScanIsScan(findMax: bool, score: Position -> real, lo: int, i: int, j: nat, n: int)
    ensures RowScan(findMax, score, lo, i, j, n) == Scan(findMax, RowMajor(lo, i, n) + Row(i, j), score)
    decreases j
  {
    if j == 0 {
      assert RowMajor(lo, i, n) + Row(i, 0) == RowMajor(lo, i, n);
    } else {
      RowScanIsScan(findMax, score, lo, i, j - 1, n);
      RowSnoc(lo, i, j, n);
      ScanAppend(findMax, RowMajor(lo, i, n) + Row(i, j - 1), Position(i, j - 1), score);
    }
  }

  /** After the last column of row i the fold is the scan of rows lo..i. */
  lemma RowDone(findMax: bool, score: Position -> real, lo: int, i: int, j: nat, n: int, acc: Best)
    requires lo <= i && (j == n || (j == 0 && n <= 0))
    requires acc == RowScan(findMax, score, lo, i, j, n)
    ensures acc == Scan(findMax, RowMajor(lo, i + 1, n), score)
  {
    RowScanIsScan(findMax, score, lo, i, j, n);
    assert RowMajor(lo, i, n) + Row(i, j) == RowMajor(lo, i + 1, n);
  }

  /** The replace/tie step, written out alike in compute, in
      compute_thread_func (with the one offset just scored) and in the fold
      of compute_parallel (with a worker's whole list). */
  method UpdateBest(findMax: bool, bestValue: real, bestPositions: seq<Position>, value: real, positions: seq<Position>)
    returns (newValue: real, newPositions: seq<Position>)
    ensures Best(newValue, newPositions) == Merge(findMax, Best(bestValue, bestPositions), Best(value, positions))
  {
    newValue, newPositions := bestValue, bestPositions;
    if findMax {
      if value > bestValue + Epsilon {
        newValue := value;
        newPositions := positions;
      } else if Abs(value - bestValue) < Epsilon {
        newPositions := bestPositions + positions;
      }
    } else {
      if value < bestValue - Epsilon {
        newValue := value;
        newPositions := positions;
      } else if Abs(value - bestValue) < Epsilon {
        newPositions := bestPositions + positions;
      }
    }
  }

  /** One pass of the inner loop body: extract the window at (i, j), score
      it, and fold it into the best set of the offsets before it. */
  method ScanCell(S: seq<int>, T: seq<int>, sRows: int, sCols: int, tRows: int, tCols: int,
                  metric: (seq<int>, seq<int>) -> real, findMax: bool, lo: int, i: int, j: int,
                  bestValue: real, bestPositions: seq<Position>)
    returns (newValue: real, newPositions: seq<Position>)
    requires 0 <= sRows && 0 <= sCols && 0 <= tRows && 0 <= tCols && |T| == tRows * tCols
    requires 0 <= i <= tRows - sRows && 0 <= j <= tCols - sCols
    requires Best(bestValue, bestPositions)
             == RowScan(findMax, ScoreAt(metric, S, T, sRows, sCols, tRows, tCols), lo, i, j, tCols - sCols + 1)
    ensures Best(newValue, newPositions)
            == RowScan(findMax, ScoreAt(metric, S, T, sRows, sCols, tRows, tCols), lo, i, j + 1, tCols - sCols + 1)
  {
    ScoreAtInside(metric, S, T, sRows, sCols, tRows, tCols, i, j);
    var subT := ExtractWindow(T, sRows, sCols, tRows, tCols, i, j);
    var value := metric(subT, S);
    newValue, newPositions := UpdateBest(findMax, bestValue, bestPositions, value, [Position(i, j)]);
  }

  /** The inner loop over the columns of row i, shared by compute and
      compute_thread_func: extract each window, score it, and fold it into
      the best set of the rows lo..i - 1 already scanned. */
  method ScanRow(S: seq<int>, T: seq<int>, sRows: int, sCols: int, tRows: int, tCols: int,
                 metric: (seq<int>, seq<int>) -> real, findMax: bool, lo: int, i: int,
                 bestValue: real, bestPositions: seq<Position>)
    returns (newValue: real, newPositions: seq<Position>)
    requires 0 <= sRows && 0 <= sCols && 0 <= tRows && 0 <= tCols && |T| == tRows * tCols
    requires lo <= i && 0 <= i <= tRows - sRows
    requires Best(bestValue, bestPositions)
             == Scan(findMax, RowMajor(lo, i, tCols - sCols + 1), ScoreAt(metric, S, T, sRows, sCols, tRows, tCols))
    ensures Best(newValue, newPositions)
            == Scan(findMax, RowMajor(lo, i + 1, tCols - sCols + 1), ScoreAt(metric, S, T, sRows, sCols, tRows, tCols))
  {
    ghost var score := ScoreAt(metric, S, T, sRows, sCols, tRows, tCols);
    ghost var n := tCols - sCols + 1;
    newValue, newPositions := bestValue, bestPositions;
    var j := 0;
    while j <= tCols - sCols
      invariant 0 <= j && (j <= n || j == 0)
      invariant Best(newValue, newPositions) == RowScan(findMax, score, lo, i, j, n)
    {
      newValue, newPositions := ScanCell(S, T, sRows, sCols, tRows, tCols, metric, findMax, lo, i, j, newValue, newPositions);
      j := j + 1;
    }
    RowDone(findMax, score, lo, i, j, n, Best(newValue, newPositions));
  }

  /** compute: scans every offset in row-major order, extracts its window,
      scores it and applies the replace/tie rule. */
  method Compute(S: seq<int>, T: seq<int>, sRows: int, sCols: int, tRows: int, tCols: int,
                 metric: (seq<int>, seq<int>) -> real, findMax: bool)
    returns (bestPositions: seq<Position>, bestValue: real)
    requires 0 <= sRows && 0 <= sCols && 0 <= tRows && 0 <= tCols && |T| == tRows * tCols
    ensures Best(bestValue, bestPositions)
            == Scan(findMax, Offsets(sRows, sCols, tRows, tCols), ScoreAt(metric, S, T, sRows, sCols, tRows, tCols))
  {
    ghost var score := ScoreAt(metric, S, T, sRows, sCols, tRows, tCols);
    ghost var nCols := tCols - sCols + 1;
    bestValue := if findMax then -DblMax else DblMax;
    bestPositions := [];
    var i := 0;
    while i <= tRows - sRows
      invariant 0 <= i && (i <= tRows - sRows + 1 || i == 0)
      invariant Best(bestValue, bestPositions) == Scan(findMax, RowMajor(0, i, nCols), score)
    {
      bestValue, bestPositions := ScanRow(S, T, sRows, sCols, tRows, tCols, metric, findMax, 0, i, bestValue, bestPositions);
      i := i + 1;
    }
  }

  /** The record handed to a worker: the inputs, its row range
      [startI, endI), and the local best it fills in. */
  datatype ComputeThreadData = ComputeThreadData(
    S: seq<int>, T: seq<int>, sRows: int, sCols: int, tRows: int, tCols: int,
    computeFunc: (seq<int>, seq<int>) -> real, findMax: bool,
    startI: int, endI: int,
    localBestValue: real, localBestPositions: seq<Position>)

  /** The worker's row range holds only offsets of the search. */
  predicate ThreadDataValid(d: ComputeThreadData)
  {
    && 0 <= d.sRows && 0 <= d.sCols && 0 <= d.tRows && 0 <= d.tCols && |d.T| == d.tRows * d.tCols
    && 0 <= d.startI <= d.endI <= d.tRows - d.sRows + 1
  }

  /** What the worker computes: the scan of the offsets in its rows. */
  function ThreadScan(d: ComputeThreadData): Best
  {
    Scan(d.findMax, RowMajor(d.startI, d.endI, d.tCols - d.sCols + 1),
         ScoreAt(d.computeFunc, d.S, d.T, d.sRows, d.sCols, d.tRows, d.tCols))
  }

  /** compute_thread_func: the same scan over rows startI..endI - 1; only
      the local best fields of the record change. */
  method ComputeThreadFunc(data: ComputeThreadData) returns (out: ComputeThreadData)
    requires ThreadDataValid(data)
    ensures out == data.(localBestValue := ThreadScan(data).value, localBestPositions := ThreadScan(data).positions)
  {
    var S, T, metric, findMax := data.S, data.T, data.computeFunc, data.findMax;
    var sRows, sCols, tRows, tCols := data.sRows, data.sCols, data.tRows, data.tCols;
    var startI, endI := data.startI, data.endI;
    ghost var score := ScoreAt(metric, S, T, sRows, sCols, tRows, tCols);
    ghost var nCols := tCols - sCols + 1;
    var localBestValue := if findMax then -DblMax else DblMax;
    var localBestPositions := [];
    var i := startI;
    while i < endI
      invariant startI <= i <= endI
      invariant Best(localBestValue, localBestPositions) == Scan(findMax, RowMajor(startI, i, nCols), score)
    {
      localBestValue, localBestPositions := ScanRow(S, T, sRows, sCols, tRows, tCols, metric, findMax, startI, i,
                                                    localBestValue, localBestPositions);
      i := i + 1;
    }
    assert Best(localBestValue, localBestPositions) == ThreadScan(data);
    out := data.(localBestValue := localBestValue, localBestPositions := localBestPositions);
  }

  /** Workers for max_i row offsets: the core count (1 when the system
      reports none), capped at max_i, and at least 1. */
  function ComputeThreadCount(cores: int, maxI: int): (k: nat)
    requires maxI >= 0
    ensures 1 <= k
    ensures cores >= 1 ==> k <= cores
    ensures maxI >= 1 ==> k <= maxI && maxI / k >= 1
    ensures cores >= 1 && maxI >= 1 ==> k == cores || k == maxI
    ensures cores <= 0 || maxI == 0 ==> k == 1
  {
    var c := if cores <= 0 then 1 else cores;
    var m := if c < maxI then c else maxI;
    if m < 1 then 1 else m
  }

  /** The record worker u of k receives: the inputs and its chunk of rows. */
  function TaskRecord(S: seq<int>, T: seq<int>, sRows: int, sCols: int, tRows: int, tCols: int,
                      metric: (seq<int>, seq<int>) -> real, findMax: bool, maxI: nat, k: nat, u: nat): ComputeThreadData
    requires 1 <= k && u < k
  {
    ComputeThreadData(S, T, sRows, sCols, tRows, tCols, metric, findMax,
                      ChunkStart(maxI, k, u), ChunkEnd(maxI, k, u), 0.0, [])
  }

  /** The record after its worker has run. */
  function Ran(d: ComputeThreadData): ComputeThreadData
  {
    d.(localBestValue := ThreadScan(d).value, localBestPositions := ThreadScan(d).positions)
  }

  /** Worker u, once run, holds the scan of its chunk. */
  lemma RanTask(S: seq<int>, T: seq<int>, sRows: int, sCols: int, tRows: int, tCols: int,
                metric: (seq<int>, seq<int>) -> real, findMax: bool, maxI: nat, k: nat, u: nat)
    requires 1 <= k && u < k
    ensures var d := Ran(TaskRecord(S, T, sRows, sCols, tRows, tCols, metric, findMax, maxI, k, u));
            Best(d.localBestValue, d.localBestPositions)
            == ChunkScan(findMax, ScoreAt(metric, S, T, sRows, sCols, tRows, tCols), maxI, k, tCols - sCols + 1, u)
  {
  }

  /** The started prefix of the filled records, once run, holds the scans
      of the started workers' chunks. */
  lemma RanTasks(S: seq<int>, T: seq<int>, sRows: int, sCols: int, tRows: int, tCols: int,
                 metric: (seq<int>, seq<int>) -> real, findMax: bool, maxI: nat, k: nat,
                 filled: seq<ComputeThreadData>, ran: seq<ComputeThreadData>, started: nat)
    requires 1 <= k && |filled| == k && |ran| == k && started <= k
    requires forall u :: 0 <= u < k ==> filled[u] == TaskRecord(S, T, sRows, sCols, tRows, tCols, metric, findMax, maxI, k, u)
    requires forall u :: 0 <= u < started ==> ran[u] == Ran(filled[u])
    ensures HoldsChunkScans(ran, started, findMax, ScoreAt(metric, S, T, sRows, sCols, tRows, tCols), maxI, tCols - sCols + 1)
  {
    forall u | 0 <= u < started
      ensures Best(ran[u].localBestValue, ran[u].localBestPositions)
              == ChunkScan(findMax, ScoreAt(metric, S, T, sRows, sCols, tRows, tCols), maxI, k, tCols - sCols + 1, u)
    {
      RanTask(S, T, sRows, sCols, tRows, tCols, metric, findMax, maxI, k, u);
    }
  }

  /** The first `started` of the k records hold the scans of their chunks. */
  predicate HoldsChunkScans(recs: seq<ComputeThreadData>, started: nat, findMax: bool, score: Position -> real, maxI: nat, nCols: int)
  {
    && 1 <= |recs| && started <= |recs|
    && forall u :: 0 <= u < started ==>
         Best(recs[u].localBestValue, recs[u].localBestPositions) == ChunkScan(findMax, score, maxI, |recs|, nCols, u)
  }

  /** One more worker's record folds into the fold of the earlier ones. */
  lemma FoldStep(recs: seq<ComputeThreadData>, started: nat, findMax: bool, score: Position -> real, maxI: nat, nCols: int, t: nat)
    requires HoldsChunkScans(recs, started, findMax, score, maxI, nCols) && t < started
    ensures ParallelFold(findMax, score, maxI, |recs|, nCols, t + 1)
            == Merge(findMax, ParallelFold(findMax, score, maxI, |recs|, nCols, t), Best(recs[t].localBestValue, recs[t].localBestPositions))
  {
  }

  /** The local best of worker u: the scan of the rows of chunk u. */
  function ChunkScan(findMax: bool, score: Position -> real, maxI: nat, k: nat, nCols: int, u: nat): Best
    requires 1 <= k && u < k
  {
    Scan(findMax, RowMajor(ChunkStart(maxI, k, u), ChunkEnd(maxI, k, u), nCols), score)
  }

  /** The local bests of the first `count` workers, folded in worker order
      with the replace/tie rule, starting from the sentinel. */
  function ParallelFold(findMax: bool, score: Position -> real, maxI: nat, k: nat, nCols: int, count: nat): Best
    requires 1 <= k && count <= k
    decreases count
  {
    if count == 0 then Initial(findMax)
    else Merge(findMax, ParallelFold(findMax, score, maxI, k, nCols, count - 1), ChunkScan(findMax, score, maxI, k, nCols, count - 1))
  }

  /** The rows covered by the first `count` chunks: [0, FoldedRows). */
  function FoldedRows(maxI: nat, k: nat, count: nat): (r: nat)
    requires 1 <= k && count <= k
    ensures r <= maxI
    ensures count == k ==> r == maxI
  {
    if count == 0 then 0 else ChunkEnd(maxI, k, count - 1)
  }

  /** How many workers start: creation succeeds for the first `spawnable`. */
  function Started(spawnable: nat, k: nat): nat
  {
    if spawnable < k then spawnable else k
  }

  /** What compute_parallel leaves in its out-parameters: the sequential
      scan when no worker started, otherwise the fold of the started ones. */
  function ParallelResult(S: seq<int>, T: seq<int>, sRows: int, sCols: int, tRows: int, tCols: int,
                          metric: (seq<int>, seq<int>) -> real, findMax: bool, cores: int, spawnable: nat): Best
    requires sRows <= tRows + 1
  {
    var maxI := tRows - sRows + 1;
    var k := ComputeThreadCount(cores, maxI);
    var score := ScoreAt(metric, S, T, sRows, sCols, tRows, tCols);
    if Started(spawnable, k) == 0 then Scan(findMax, Offsets(sRows, sCols, tRows, tCols), score)
    else ParallelFold(findMax, score, maxI, k, tCols - sCols + 1, Started(spawnable, k))
  }

  /** The record-filling loop of compute_parallel: worker t gets rows
      [t * chunk, (t + 1) * chunk), the last one up to max_i. */
  method FillThreadData(S: seq<int>, T: seq<int>, sRows: int, sCols: int, tRows: int, tCols: int,
                        metric: (seq<int>, seq<int>) -> real, findMax: bool, maxI: nat, numThreads: nat)
    returns (threadData: array<ComputeThreadData>)
    requires 0 <= sRows && 0 <= sCols && 0 <= tRows && 0 <= tCols && |T| == tRows * tCols
    requires maxI == tRows - sRows + 1 && 1 <= numThreads
    ensures fresh(threadData) && threadData.Length == numThreads
    ensures forall u :: 0 <= u < numThreads ==>
              threadData[u] == TaskRecord(S, T, sRows, sCols, tRows, tCols, metric, findMax, maxI, numThreads, u)
    ensures forall u :: 0 <= u < numThreads ==> ThreadDataValid(threadData[u])
  {
    threadData := new ComputeThreadData[numThreads](_ => ComputeThreadData(S, T, sRows, sCols, tRows, tCols, metric, findMax, 0, 0, 0.0, []));
    var chunkSize := maxI / numThreads;
    var t := 0;
    while t < numThreads
      invariant 0 <= t <= numThreads
      invariant forall u :: 0 <= u < t ==>
                  threadData[u] == TaskRecord(S, T, sRows, sCols, tRows, tCols, metric, findMax, maxI, numThreads, u)
    {
      threadData[t] := ComputeThreadData(S, T, sRows, sCols, tRows, tCols, metric, findMax,
                                         t * chunkSize, if t == numThreads - 1 then maxI else (t + 1) * chunkSize,
                                         0.0, []);
      t := t + 1;
    }
  }

  /** The creation loop of compute_parallel: workers are started in order
      until a creation fails (creation t succeeds exactly when t < spawnable);
      each started worker has run once it is joined. */
  method StartWorkers(threadData: array<ComputeThreadData>, spawnable: nat) returns (successfulThreads: nat)
    requires forall u :: 0 <= u < threadData.Length ==> ThreadDataValid(threadData[u])
    modifies threadData
    ensures successfulThreads == Started(spawnable, threadData.Length)
    ensures forall u :: 0 <= u < successfulThreads ==> threadData[u] == Ran(old(threadData[u]))
    ensures forall u :: successfulThreads <= u < threadData.Length ==> threadData[u] == old(threadData[u])
  {
    successfulThreads := 0;
    var t := 0;
    while t < threadData.Length
      invariant 0 <= t <= threadData.Length && t <= spawnable && successfulThreads == t
      invariant forall u :: 0 <= u < t ==> threadData[u] == Ran(old(threadData[u]))
      invariant forall u :: t <= u < threadData.Length ==> threadData[u] == old(threadData[u])
    {
      if t >= spawnable {
        break;
      }
      threadData[t] := ComputeThreadFunc(threadData[t]);
      successfulThreads := successfulThreads + 1;
      t := t + 1;
    }
  }

  /** The creation and join loops of compute_parallel over freshly filled
      records: how many workers started, and that each started record
      holds the scan of its chunk. */
  method RunWorkers(S: seq<int>, T: seq<int>, sRows: int, sCols: int, tRows: int, tCols: int,
                    metric: (seq<int>, seq<int>) -> real, findMax: bool, maxI: nat, numThreads: nat, spawnable: nat)
    returns (threadData: array<ComputeThreadData>, successfulThreads: nat)
    requires 0 <= sRows && 0 <= sCols && 0 <= tRows && 0 <= tCols && |T| == tRows * tCols
    requires maxI == tRows - sRows + 1 && 1 <= numThreads
    ensures fresh(threadData) && threadData.Length == numThreads
    ensures successfulThreads == Started(spawnable, numThreads)
    ensures HoldsChunkScans(threadData[..], successfulThreads, findMax, ScoreAt(metric, S, T, sRows, sCols, tRows, tCols), maxI, tCols - sCols + 1)
  {
    threadData := FillThreadData(S, T, sRows, sCols, tRows, tCols, metric, findMax, maxI, numThreads);
    ghost var filled := threadData[..];
    successfulThreads := StartWorkers(threadData, spawnable);
    RanTasks(S, T, sRows, sCols, tRows, tCols, metric, findMax, maxI, numThreads, filled, threadData[..], successfulThreads);
  }

  /** The fold loop of compute_parallel: the local bests of the started
      workers, in worker order, through the replace/tie rule. The ghost
      parameters name the inputs the records were filled from. */
  method FoldResults(threadData: array<ComputeThreadData>, successfulThreads: nat, findMax: bool,
                     ghost score: Position -> real, ghost maxI: nat, ghost nCols: int)
    returns (bestPositions: seq<Position>, bestValue: real)
    requires 1 <= threadData.Length && successfulThreads <= threadData.Length
    requires HoldsChunkScans(threadData[..], successfulThreads, findMax, score, maxI, nCols)
    ensures Best(bestValue, bestPositions) == ParallelFold(findMax, score, maxI, threadData.Length, nCols, successfulThreads)
  {
    bestValue := if findMax then -DblMax else DblMax;
    bestPositions := [];
    var t := 0;
    while t < successfulThreads
      invariant 0 <= t <= successfulThreads
      invariant Best(bestValue, bestPositions) == ParallelFold(findMax, score, maxI, threadData.Length, nCols, t)
    {
      FoldStep(threadData[..], successfulThreads, findMax, score, maxI, nCols, t);
      bestValue, bestPositions := UpdateBest(findMax, bestValue, bestPositions,
                                             threadData[t].localBestValue, threadData[t].localBestPositions);
      t := t + 1;
    }
  }

  /** ParallelResult for a known worker count and started prefix. */
  lemma ParallelResultCases(S: seq<int>, T: seq<int>, sRows: int, sCols: int, tRows: int, tCols: int,
                            metric: (seq<int>, seq<int>) -> real, findMax: bool, cores: int, spawnable: nat, k: nat, started: nat)
    requires sRows <= tRows + 1
    requires k == ComputeThreadCount(cores, tRows - sRows + 1) && started == Started(spawnable, k)
    ensures started == 0 ==>
              ParallelResult(S, T, sRows, sCols, tRows, tCols, metric, findMax, cores, spawnable)
              == Scan(findMax, Offsets(sRows, sCols, tRows, tCols), ScoreAt(metric, S, T, sRows, sCols, tRows, tCols))
    ensures started > 0 ==>
              ParallelResult(S, T, sRows, sCols, tRows, tCols, metric, findMax, cores, spawnable)
              == ParallelFold(findMax, ScoreAt(metric, S, T, sRows, sCols, tRows, tCols), tRows - sRows + 1, k, tCols - sCols + 1, started)
  {
  }

  /** compute_parallel: thread count and row chunks, the started prefix of
      workers, the ordered fold, and the fallback to compute when no worker
      started. */
  method ComputeParallel(S: seq<int>, T: seq<int>, sRows: int, sCols: int, tRows: int, tCols: int,
                         metric: (seq<int>, seq<int>) -> real, findMax: bool, cores: int, spawnable: nat)
    returns (bestPositions: seq<Position>, bestValue: real)
    requires 0 <= sRows && 0 <= sCols && 0 <= tRows && 0 <= tCols && |T| == tRows * tCols
    requires sRows <= tRows + 1
    ensures Best(bestValue, bestPositions) == ParallelResult(S, T, sRows, sCols, tRows, tCols, metric, findMax, cores, spawnable)
  {
    bestValue := if findMax then -DblMax else DblMax;
    bestPositions := [];
    var numCores := cores;
    if numCores <= 0 {
      numCores := 1;
    }
    var maxI := tRows - sRows + 1;
    var numThreads := if numCores < maxI then numCores else maxI;
    if numThreads < 1 {
      numThreads := 1;
    }
    assert numThreads == ComputeThreadCount(cores, maxI);
    ghost var score := ScoreAt(metric, S, T, sRows, sCols, tRows, tCols);
    ghost var nCols := tCols - sCols + 1;

    var threadData, successfulThreads := RunWorkers(S, T, sRows, sCols, tRows, tCols, metric, findMax, maxI, numThreads, spawnable);
    if successfulThreads == 0 {
      bestPositions, bestValue := Compute(S, T, sRows, sCols, tRows, tCols, metric, findMax);
      ParallelResultCases(S, T, sRows, sCols, tRows, tCols, metric, findMax, cores, spawnable, numThreads, successfulThreads);
      return;
    }
    bestPositions, bestValue := FoldResults(threadData, successfulThreads, findMax, score, maxI, nCols);
    ParallelResultCases(S, T, sRows, sCols, tRows, tCols, metric, findMax, cores, spawnable, numThreads, successfulThreads);
  }

  // ---------------------------------------------------------------------
  // What the search result means

  /** The scan reports only offsets of the search, in strictly increasing
      row-major order (so without duplicates). */
  lemma SearchPositionsValid(findMax: bool, metric: (seq<int>, seq<int>) -> real, S: seq<int>, T: seq<int>,
                             sRows: int, sCols: int, tRows: int, tCols: int)
    ensures var r := Scan(findMax, Offsets(sRows, sCols, tRows, tCols), ScoreAt(metric, S, T, sRows, sCols, tRows, tCols));
            && (forall q :: q in r.positions ==> 0 <= q.row <= tRows - sRows && 0 <= q.col <= tCols - sCols)
            && StrictlyIncreasing(r.positions)
  {
    var ps := Offsets(sRows, sCols, tRows, tCols);
    var score := ScoreAt(metric, S, T, sRows, sCols, tRows, tCols);
    ScanMembers(findMax, ps, score);
    RowMajorBounds(0, tRows - sRows + 1, tCols - sCols + 1);
    RowMajorIncreasing(0, tRows - sRows + 1, tCols - sCols + 1);
    ScanOrdered(findMax, ps, score);
  }

  /** Every reported offset scores within the tolerance of the best value,
      and no offset of the search beats the best value by more than the
      tolerance. */
  lemma SearchOptimal(findMax: bool, metric: (seq<int>, seq<int>) -> real, S: seq<int>, T: seq<int>,
                      sRows: int, sCols: int, tRows: int, tCols: int)
    ensures var score := ScoreAt(metric, S, T, sRows, sCols, tRows, tCols);
            var r := Scan(findMax, Offsets(sRows, sCols, tRows, tCols), score);
            && (forall q :: q in r.positions ==> Abs(score(q) - r.value) < Epsilon)
            && (forall i, j :: 0 <= i <= tRows - sRows && 0 <= j <= tCols - sCols ==>
                  if findMax then score(Position(i, j)) <= r.value + Epsilon
                  else score(Position(i, j)) >= r.value - Epsilon)
  {
    RectangleOptimal(findMax, ScoreAt(metric, S, T, sRows, sCols, tRows, tCols), tRows - sRows + 1, tCols - sCols + 1);
  }

  /** SearchOptimal for any score over the rectangle of m rows and n
      columns. */
  lemma RectangleOptimal(findMax: bool, score: Position -> real, m: int, n: int)
    ensures var r := Scan(findMax, RowMajor(0, m, n), score);
            && (forall q :: q in r.positions ==> Abs(score(q) - r.value) < Epsilon)
            && (forall i, j :: 0 <= i < m && 0 <= j < n ==>
                  if findMax then score(Position(i, j)) <= r.value + Epsilon
                  else score(Position(i, j)) >= r.value - Epsilon)
  {
    var ps := RowMajor(0, m, n);
    ScanTies(findMax, ps, score);
    ScanOptimal(findMax, ps, score);
    forall i, j | 0 <= i < m && 0 <= j < n
      ensures Position(i, j) in ps
    {
      RowMajorComplete(0, m, n, Position(i, j));
    }
  }

  /** Every offset whose score equals the best value exactly is reported. */
  lemma SearchKeepsExactMatches(findMax: bool, metric: (seq<int>, seq<int>) -> real, S: seq<int>, T: seq<int>,
                                sRows: int, sCols: int, tRows: int, tCols: int)
    ensures var score := ScoreAt(metric, S, T, sRows, sCols, tRows, tCols);
            var r := Scan(findMax, Offsets(sRows, sCols, tRows, tCols), score);
            forall i, j :: 0 <= i <= tRows - sRows && 0 <= j <= tCols - sCols && score(Position(i, j)) == r.value ==>
              Position(i, j) in r.positions
  {
    var ps := Offsets(sRows, sCols, tRows, tCols);
    var score := ScoreAt(metric, S, T, sRows, sCols, tRows, tCols);
    ScanKeepsExactMatches(findMax, ps, score);
    forall i, j | 0 <= i <= tRows - sRows && 0 <= j <= tCols - sCols
      ensures Position(i, j) in ps
    {
      RowMajorComplete(0, tRows - sRows + 1, tCols - sCols + 1, Position(i, j));
    }
  }

  /** A pattern larger than the target in either dimension has no offsets:
      nothing is reported and the best value stays at the sentinel. */
  lemma SearchNoOffsets(findMax: bool, metric: (seq<int>, seq<int>) -> real, S: seq<int>, T: seq<int>,
                        sRows: int, sCols: int, tRows: int, tCols: int)
    requires sRows > tRows || sCols > tCols
    ensures Scan(findMax, Offsets(sRows, sCols, tRows, tCols), ScoreAt(metric, S, T, sRows, sCols, tRows, tCols))
            == Best(if findMax then -DblMax else DblMax, [])
  {
    RowMajorBounds(0, tRows - sRows + 1, tCols - sCols + 1);
  }

  /** When the pattern fits and every score lies strictly inside the
      sentinels, the result is non-empty and its first offset scores the
      best value exactly. */
  lemma SearchFindsSomething(findMax: bool, metric: (seq<int>, seq<int>) -> real, S: seq<int>, T: seq<int>,
                             sRows: int, sCols: int, tRows: int, tCols: int)
    requires sRows <= tRows && sCols <= tCols
    requires Admissible(Offsets(sRows, sCols, tRows, tCols), ScoreAt(metric, S, T, sRows, sCols, tRows, tCols))
    ensures var score := ScoreAt(metric, S, T, sRows, sCols, tRows, tCols);
            var r := Scan(findMax, Offsets(sRows, sCols, tRows, tCols), score);
            r.positions != [] && score(r.positions[0]) == r.value
  {
    var ps := Offsets(sRows, sCols, tRows, tCols);
    RowMajorComplete(0, tRows - sRows + 1, tCols - sCols + 1, Position(0, 0));
    ScanFirstExact(findMax, ps, ScoreAt(metric, S, T, sRows, sCols, tRows, tCols));
  }

  // ---------------------------------------------------------------------
  // The squared-difference metric plugged into the search

  /** compute_ssd as a search metric (the sizes always agree here). */
  function SsdScore(window: seq<int>, pattern: seq<int>): real
  {
    if |window| == |pattern| then SsdMetric.Ssd(window, pattern) as real else 0.0
  }

  /** With the SSD metric the tolerance plays no part: minimising reports
      exactly the offsets, in row-major order, whose SSD equals the reported
      value, and no offset has a smaller SSD. */
  lemma SsdSearchExact(S: seq<int>, T: seq<int>, sRows: int, sCols: int, tRows: int, tCols: int)
    requires 0 <= sRows && 0 <= sCols && 0 <= tRows && 0 <= tCols && |T| == tRows * tCols
    requires |S| == sRows * sCols
    ensures var ps := Offsets(sRows, sCols, tRows, tCols);
            var score := ScoreAt(SsdScore, S, T, sRows, sCols, tRows, tCols);
            var r := Scan(false, ps, score);
            && r.positions == Filter(ps, score, r.value)
            && (forall p :: p in ps ==> r.value <= score(p))
  {
    var ps := Offsets(sRows, sCols, tRows, tCols);
    var score := ScoreAt(SsdScore, S, T, sRows, sCols, tRows, tCols);
    SsdScoresInteger(S, T, sRows, sCols, tRows, tCols);
    ScanIntegerExact(false, ps, score);
    ScanOptimal(false, ps, score);
    var r := Scan(false, ps, score);
    forall p | p in ps
      ensures r.value <= score(p)
    {
      IntegerNotBelow(score(p), r.value);
    }
  }

  /** Of two whole numbers, one not below the other minus the tolerance is
      not below it at all. */
  lemma IntegerNotBelow(x: real, v: real)
    requires IsInteger(x) && IsInteger(v) && !(x < v - Epsilon)
    ensures v <= x
  {
  }

  /** Every SSD score of the search is a whole number. */
  lemma SsdScoresInteger(S: seq<int>, T: seq<int>, sRows: int, sCols: int, tRows: int, tCols: int)
    requires 0 <= sRows && 0 <= sCols && 0 <= tRows && 0 <= tCols && |T| == tRows * tCols
    requires |S| == sRows * sCols
    ensures IntegerValued(Offsets(sRows, sCols, tRows, tCols), ScoreAt(SsdScore, S, T, sRows, sCols, tRows, tCols))
  {
    var ps := Offsets(sRows, sCols, tRows, tCols);
    RowMajorBounds(0, tRows - sRows + 1, tCols - sCols + 1);
    forall p | p in ps
      ensures IsInteger(ScoreAt(SsdScore, S, T, sRows, sCols, tRows, tCols)(p))
    {
      WindowAt(T, sRows, sCols, tRows, tCols, p.row, p.col);
      var n := SsdScore(Window(T, sRows, sCols, tRows, tCols, p.row, p.col), S);
      assert n == SsdMetric.Ssd(Window(T, sRows, sCols, tRows, tCols, p.row, p.col), S) as real;
    }
  }

  // ---------------------------------------------------------------------
  // The parallel search against the sequential one

  /** When scores are equal or more than the tolerance apart, folding the
      first `count` chunk results gives the sequential scan of exactly the
      rows those chunks cover. */
  lemma {:induction false} ParallelFoldIsScan(findMax: bool, score: Position -> real, maxI: nat, k: nat, nCols: int, count: nat)
    requires 1 <= k && count <= k
    requires Separated(RowMajor(0, maxI, nCols), score) && Admissible(RowMajor(0, maxI, nCols), score)
    ensures ParallelFold(findMax, score, maxI, k, nCols, count)
            == Scan(findMax, RowMajor(0, FoldedRows(maxI, k, count), nCols), score)
    decreases count
  {
    if count > 0 {
      ParallelFoldIsScan(findMax, score, maxI, k, nCols, count - 1);
      var f := FoldedRows(maxI, k, count - 1);
      var e := ChunkEnd(maxI, k, count - 1);
      if count > 1 {
        ChunksTouch(maxI, k, count - 1);
      }
      assert f == ChunkStart(maxI, k, count - 1);
      var a := RowMajor(0, f, nCols);
      var b := RowMajor(f, e, nCols);
      RowMajorSplit(0, f, e, nCols);
      RowMajorSplit(0, e, maxI, nCols);
      PartsInherit(a + b, RowMajor(e, maxI, nCols), score);
      PartsInherit(a, b, score);
      ScanExpected(findMax, a, score);
      ScanExpected(findMax, b, score);
      ScanExpected(findMax, a + b, score);
      MergeExpected(findMax, a, b, score);
    }
  }

  /** No worker started, or every worker started (with scores equal or
      more than the tolerance apart): compute_parallel returns what compute
      returns. */
  lemma ParallelMatchesCompute(S: seq<int>, T: seq<int>, sRows: int, sCols: int, tRows: int, tCols: int,
                               metric: (seq<int>, seq<int>) -> real, findMax: bool, cores: int, spawnable: nat)
    requires sRows <= tRows + 1
    requires spawnable == 0 || spawnable >= ComputeThreadCount(cores, tRows - sRows + 1)
    requires var score := ScoreAt(metric, S, T, sRows, sCols, tRows, tCols);
             Separated(Offsets(sRows, sCols, tRows, tCols), score) && Admissible(Offsets(sRows, sCols, tRows, tCols), score)
    ensures ParallelResult(S, T, sRows, sCols, tRows, tCols, metric, findMax, cores, spawnable)
            == Scan(findMax, Offsets(sRows, sCols, tRows, tCols), ScoreAt(metric, S, T, sRows, sCols, tRows, tCols))
  {
    var maxI := tRows - sRows + 1;
    var k := ComputeThreadCount(cores, maxI);
    var started := Started(spawnable, k);
    var score := ScoreAt(metric, S, T, sRows, sCols, tRows, tCols);
    var nCols := tCols - sCols + 1;
    assert Offsets(sRows, sCols, tRows, tCols) == RowMajor(0, maxI, nCols);
    ParallelResultCases(S, T, sRows, sCols, tRows, tCols, metric, findMax, cores, spawnable, k, started);
    if started > 0 {
      assert started == k;
      ParallelFoldIsScan(findMax, score, maxI, k, nCols, k);
    }
  }

  /** Only some workers started: the result is the sequential scan of the
      rows of the started chunks only; the other rows are never searched. */
  lemma ParallelPrefixOnly(S: seq<int>, T: seq<int>, sRows: int, sCols: int, tRows: int, tCols: int,
                           metric: (seq<int>, seq<int>) -> real, findMax: bool, cores: int, spawnable: nat)
    requires sRows <= tRows + 1
    requires 0 < spawnable < ComputeThreadCount(cores, tRows - sRows + 1)
    requires var score := ScoreAt(metric, S, T, sRows, sCols, tRows, tCols);
             Separated(Offsets(sRows, sCols, tRows, tCols), score) && Admissible(Offsets(sRows, sCols, tRows, tCols), score)
    ensures var maxI := tRows - sRows + 1;
            var k := ComputeThreadCount(cores, maxI);
            ParallelResult(S, T, sRows, sCols, tRows, tCols, metric, findMax, cores, spawnable)
            == Scan(findMax, RowMajor(0, ChunkEnd(maxI, k, spawnable - 1), tCols - sCols + 1),
                    ScoreAt(metric, S, T, sRows, sCols, tRows, tCols))
  {
    var maxI := tRows - sRows + 1;
    var k := ComputeThreadCount(cores, maxI);
    var score := ScoreAt(metric, S, T, sRows, sCols, tRows, tCols);
    var nCols := tCols - sCols + 1;
    assert Offsets(sRows, sCols, tRows, tCols) == RowMajor(0, maxI, nCols);
    ParallelResultCases(S, T, sRows, sCols, tRows, tCols, metric, findMax, cores, spawnable, k, spawnable);
    ParallelFoldIsScan(findMax, score, maxI, k, nCols, spawnable);
    assert FoldedRows(maxI, k, spawnable) == ChunkEnd(maxI, k, spawnable - 1);
  }

  /** Whatever the scores, the fold of the first `count` chunk results lists
      only offsets of the rows those chunks cover, in strictly increasing
      row-major order. */
  lemma {:induction false} ParallelFoldOrdered(findMax: bool, score: Position -> real, maxI: nat, k: nat, nCols: int, count: nat)
    requires 1 <= k && count <= k
    ensures var r := ParallelFold(findMax, score, maxI, k, nCols, count);
            && (forall q :: q in r.positions ==> 0 <= q.row < FoldedRows(maxI, k, count) && 0 <= q.col < nCols)
            && StrictlyIncreasing(r.positions)
    decreases count
  {
    if count > 0 {
      ParallelFoldOrdered(findMax, score, maxI, k, nCols, count - 1);
      var acc := ParallelFold(findMax, score, maxI, k, nCols, count - 1);
      var s := ChunkStart(maxI, k, count - 1);
      var e := ChunkEnd(maxI, k, count - 1);
      if count > 1 {
        ChunksTouch(maxI, k, count - 1);
      }
      var chunk := RowMajor(s, e, nCols);
      var cand := Scan(findMax, chunk, score);
      ScanMembers(findMax, chunk, score);
      RowMajorBounds(s, e, nCols);
      RowMajorIncreasing(s, e, nCols);
      ScanOrdered(findMax, chunk, score);
      if !Better(findMax, cand.value, acc.value) && Ties(cand.value, acc.value) {
        IncreasingConcat(acc.positions, cand.positions);
      }
    }
  }

  /** Whatever the scores and however many workers start, compute_parallel
      reports only offsets of the search, in strictly increasing row-major
      order. */
  lemma ParallelPositionsValid(S: seq<int>, T: seq<int>, sRows: int, sCols: int, tRows: int, tCols: int,
                               metric: (seq<int>, seq<int>) -> real, findMax: bool, cores: int, spawnable: nat)
    requires sRows <= tRows + 1
    ensures var r := ParallelResult(S, T, sRows, sCols, tRows, tCols, metric, findMax, cores, spawnable);
            && (forall q :: q in r.positions ==> 0 <= q.row <= tRows - sRows && 0 <= q.col <= tCols - sCols)
            && StrictlyIncreasing(r.positions)
  {
    var maxI := tRows - sRows + 1;
    var k := ComputeThreadCount(cores, maxI);
    var started := Started(spawnable, k);
    ParallelResultCases(S, T, sRows, sCols, tRows, tCols, metric, findMax, cores, spawnable, k, started);
    if started == 0 {
      SearchPositionsValid(findMax, metric, S, T, sRows, sCols, tRows, tCols);
    } else {
      ParallelFoldOrdered(findMax, ScoreAt(metric, S, T, sRows, sCols, tRows, tCols), maxI, k, tCols - sCols + 1, started);
    }
  }

  /** Scores of the three rows of a one-column search: 0, 0.6e-10 and
      1.2e-10, each tie closer than the tolerance only to its neighbour. */
  function DriftScore(p: Position): real
  {
    if p.row == 0 then 0.0 else if p.row == 1 then 0.00000000006 else 0.00000000012
  }

  /** Without separated scores the parallel fold can report more than the
      sequential scan. Minimising over those three rows with two workers
      (rows [0, 1) and [1, 3)): worker 1 ties its two rows around 0.6e-10,
      the fold ties that result with 0, and all three offsets are reported;
      the sequential scan ties row 1 with 0 and drops row 2. */
  lemma ParallelTiesDrift()
    ensures ParallelFold(false, DriftScore, 3, 2, 1, 2).positions == [Position(0, 0), Position(1, 0), Position(2, 0)]
    ensures Scan(false, RowMajor(0, 3, 1), DriftScore).positions == [Position(0, 0), Position(1, 0)]
  {
    assert ChunkStart(3, 2, 1) == 1 && ChunkEnd(3, 2, 0) == 1 && ChunkEnd(3, 2, 1) == 3;
    assert Row(0, 1) == [Position(0, 0)];
    assert Row(1, 1) == [Position(1, 0)];
    assert Row(2, 1) == [Position(2, 0)];
    assert RowMajor(0, 1, 1) == [Position(0, 0)];
    assert RowMajor(1, 3, 1) == [Position(1, 0), Position(2, 0)] by {
      assert RowMajor(1, 2, 1) == [Position(1, 0)];
    }
    assert RowMajor(0, 3, 1) == [Position(0, 0), Position(1, 0), Position(2, 0)] by {
      assert RowMajor(0, 2, 1) == [Position(0, 0), Position(1, 0)];
    }
    var first := Scan(false, [Position(0, 0)], DriftScore);
    assert first == Best(0.0, [Position(0, 0)]);
    var second := Scan(false, [Position(1, 0), Position(2, 0)], DriftScore);
    assert Scan(false, [Position(1, 0)], DriftScore) == Best(0.00000000006, [Position(1, 0)]);
    assert second == Best(0.00000000006, [Position(1, 0), Position(2, 0)]);
    assert Scan(false, [Position(0, 0), Position(1, 0)], DriftScore) == Best(0.0, [Position(0, 0), Position(1, 0)]);
  }
}

=== FILE: exceptions.dfy ===
/** Error values standing for the C++ exceptions the core throws, and the
    failure-compatible wrappers used to return them. */
module Exceptions {

  /** The three standard exception classes the core raises or lets escape. */
  datatype Exception =
    | InvalidArgument(what: string)   // std::invalid_argument
    | RuntimeError(what: string)      // std::runtime_error
    | OutOfRange(what: string)        // std::out_of_range (escapes std::stoi)

  /** A value, or the exception that was thrown instead of producing it. */
  datatype Result<T> = Ok(value: T) | Err(error: Exception)

  /** A procedure that returns nothing either finishes or throws. */
  datatype Outcome = Pass | Fail(error: Exception)

  datatype Option<T> = None | Some(value: T)
}

=== FILE: grid.dfy ===
/** Offsets of the pattern inside the target, and the row-major order in
    which the search visits them. */
module Grid {

  /** A top-left placement (row, column) of the pattern in the target. */
  datatype Position = Position(row: int, col: int)

  /** Strict row-major order: earlier row, or same row and earlier column. */
  predicate Before(p: Position, q: Position)
  {
    p.row < q.row || (p.row == q.row && p.col < q.col)
  }

  /** Strictly increasing in row-major order (hence free of duplicates). */
  predicate StrictlyIncreasing(ps: seq<Position>)
  {
    forall a, b :: 0 <= a < b < |ps| ==> Before(ps[a], ps[b])
  }

  /** The offsets (i, 0), ..., (i, n - 1) of one row, in column order. */
  function Row(i: int, n: int): (r: seq<Position>)
    decreases n
  {
    if n <= 0 then [] else Row(i, n - 1) + [Position(i, n - 1)]
  }

  /** Every offset with lo <= row < hi and 0 <= col < n, rows outer and
      columns inner, exactly as the nested search loops visit them. */
  function RowMajor(lo: int, hi: int, n: int): seq<Position>
    decreases hi - lo
  {
    if hi <= lo then [] else RowMajor(lo, hi - 1, n) + Row(hi - 1, n)
  }

  lemma {:induction false} RowContents(i: int, n: int)
    ensures |Row(i, n)| == if n <= 0 then 0 else n
    ensures forall c :: 0 <= c < |Row(i, n)| ==> Row(i, n)[c] == Position(i, c)
    decreases n
  {
    if n > 0 {
      RowContents(i, n - 1);
    }
  }

  /** Every listed offset lies inside the rectangle. */
  lemma {:induction false} RowMajorBounds(lo: int, hi: int, n: int)
    ensures forall p :: p in RowMajor(lo, hi, n) ==> lo <= p.row < hi && 0 <= p.col < n
    decreases hi - lo
  {
    if lo < hi {
      RowMajorBounds(lo, hi - 1, n);
      RowContents(hi - 1, n);
    }
  }

  /** Every offset of the rectangle is listed. */
  lemma {:induction false} RowMajorComplete(lo: int, hi: int, n: int, p: Position)
    requires lo <= p.row < hi && 0 <= p.col < n
    ensures p in RowMajor(lo, hi, n)
    decreases hi - lo
  {
    if p.row < hi - 1 {
      RowMajorComplete(lo, hi - 1, n, p);
    } else {
      RowContents(hi - 1, n);
      assert Row(hi - 1, n)[p.col] == p;
    }
  }

  /** Appending a list whose every element comes after every element of a
      strictly increasing list keeps it strictly increasing. */
  lemma IncreasingConcat(a: seq<Position>, b: seq<Position>)
    requires StrictlyIncreasing(a) && StrictlyIncreasing(b)
    requires forall x, y :: x in a && y in b ==> Before(x, y)
    ensures StrictlyIncreasing(a + b)
  {
    forall i, j | 0 <= i < j < |a + b|
      ensures Before((a + b)[i], (a + b)[j])
    {
      if j < |a| {
      } else if i >= |a| {
        assert (a + b)[i] == b[i - |a|] && (a + b)[j] == b[j - |a|];
      } else {
        assert (a + b)[i] in a && (a + b)[j] in b;
      }
    }
  }

  /** The search visits offsets in strictly increasing row-major order. */
  lemma {:induction false} RowMajorIncreasing(lo: int, hi: int, n: int)
    ensures StrictlyIncreasing(RowMajor(lo, hi, n))
    decreases hi - lo
  {
    if lo < hi {
      RowMajorIncreasing(lo, hi - 1, n);
      RowMajorBounds(lo, hi - 1, n);
      RowContents(hi - 1, n);
      IncreasingConcat(RowMajor(lo, hi - 1, n), Row(hi - 1, n));
    }
  }

  /** Scanning rows [lo, hi) is scanning [lo, mid) and then [mid, hi). */
  lemma {:induction false} RowMajorSplit(lo: int, mid: int, hi: int, n: int)
    requires lo <= mid <= hi
    ensures RowMajor(lo, hi, n) == RowMajor(lo, mid, n) + RowMajor(mid, hi, n)
    decreases hi - mid
  {
    if mid < hi {
      RowMajorSplit(lo, mid, hi - 1, n);
    }
  }
}

=== FILE: plot.dfy ===
/** parse_filename of plot.py: the data name and the two matrix sizes that
    a CSV file written by write_to_csv carries in its name. Python's
    os.path.basename, os.path.splitext and the regular expression
    `^(.*?)(?:_(\d+x\d+)_(\d+x\d+))$` are written out on strings. */
module Plot {
  import opened Exceptions
  import opened Utils

  /** The returned triple: the name, and the two sizes or None. */
  datatype Parsed = Parsed(name: string, sSize: Option<string>, tSize: Option<string>)

  /** Index of the last `c` in `s`, or -1 (str.rfind). */
  function LastIndexOf(s: string, c: char): (k: int)
    ensures -1 <= k < |s|
    ensures k >= 0 ==> s[k] == c
    ensures forall i :: k < i < |s| ==> s[i] != c
  {
    if s == [] then -1
    else if s[|s| - 1] == c then |s| - 1
    else LastIndexOf(s[..|s| - 1], c)
  }

  /** Text free of `c` appended after `x` leaves the last `c` where it was. */
  lemma {:induction false} LastIndexOfAppend(x: string, y: string, c: char)
    requires c !in y
    ensures LastIndexOf(x + y, c) == LastIndexOf(x, c)
    decreases |y|
  {
    if y == [] {
      assert x + y == x;
    } else {
      assert (x + y)[..|x + y| - 1] == x + y[..|y| - 1];
      LastIndexOfAppend(x, y[..|y| - 1], c);
    }
  }

  /** os.path.basename: everything after the last '/'. */
  function Basename(f: string): (b: string)
    ensures '/' !in b && EndsWith(f, b)
    ensures |b| == |f| || f[|f| - |b| - 1] == '/'
  {
    f[LastIndexOf(f, '/') + 1..]
  }

  predicate AllDots(s: string)
  {
    forall i :: 0 <= i < |s| ==> s[i] == '.'
  }

  /** os.path.splitext(p)[0]: `p` without its extension, the extension
      being the text from the last '.' of the last path component, unless
      only dots come before that '.' in the component (a leading-dot name
      such as ".profile" has no extension). */
  function SplitextRoot(p: string): string
  {
    var sepIndex := LastIndexOf(p, '/');
    var dotIndex := LastIndexOf(p, '.');
    if dotIndex > sepIndex && !AllDots(p[sepIndex + 1..dotIndex]) then p[..dotIndex] else p
  }

  /** The root is a prefix of the path; what was cut off starts with '.'
      and holds no further '.' and no '/'. */
  lemma SplitextRootShape(p: string)
    ensures var root := SplitextRoot(p);
      |root| <= |p| && p[..|root|] == root &&
      (root != p ==> p[|root|] == '.' && forall i :: |root| < i < |p| ==> p[i] != '.' && p[i] != '/')
  {
    var sepIndex := LastIndexOf(p, '/');
    var dotIndex := LastIndexOf(p, '.');
    if dotIndex > sepIndex && !AllDots(p[sepIndex + 1..dotIndex]) {
      assert SplitextRoot(p) == p[..dotIndex];
    } else {
      assert SplitextRoot(p) == p;
    }
  }

  /** The file name without directory and extension. */
  function Stem(f: string): string
  {
    SplitextRoot(Basename(f))
  }

  /** A match of the pattern: the lazy prefix and the four digit runs. */
  datatype SizeMatch = SizeMatch(prefix: string, sRows: string, sCols: string, tRows: string, tCols: string)

  function Composed(m: SizeMatch): string
  {
    m.prefix + "_" + m.sRows + "x" + m.sCols + "_" + m.tRows + "x" + m.tCols
  }

  /** `stem` is prefix_<d>x<d>_<d>x<d>, possibly followed by one line break
      (`$` also matches before a final "\n"), the prefix free of line
      breaks (`.` does not match "\n"). */
  predicate SizesName(stem: string, m: SizeMatch)
  {
    && m.sRows != [] && AllDigits(m.sRows) && m.sCols != [] && AllDigits(m.sCols)
    && m.tRows != [] && AllDigits(m.tRows) && m.tCols != [] && AllDigits(m.tCols)
    && '\n' !in m.prefix
    && (stem == Composed(m) || stem == Composed(m) + "\n")
  }

  /** The regular-expression match, read from the end of the stem. The
      text after the prefix holds exactly two underscores, so at most one
      split of the stem fits and the lazy prefix is that split's prefix. */
  function MatchSizes(stem: string): (r: Option<SizeMatch>)
    ensures r.Some? ==> SizesName(stem, r.value)
  {
    var body := if stem != [] && stem[|stem| - 1] == '\n' then stem[..|stem| - 1] else stem;
    assert stem == body || stem == body + "\n";
    match Peel(body, 'x')
    case None => None
    case Some((rest1, tCols)) =>
      match Peel(rest1, '_')
      case None => None
      case Some((rest2, tRows)) =>
        match Peel(rest2, 'x')
        case None => None
        case Some((rest3, sCols)) =>
          match Peel(rest3, '_')
          case None => None
          case Some((prefix, sRows)) =>
            if '\n' in prefix then None else Some(SizeMatch(prefix, sRows, sCols, tRows, tCols))
  }

  /** Every stem of that form matches, with exactly its parts. */
  lemma MatchSizesComplete(stem: string, m: SizeMatch)
    requires SizesName(stem, m)
    ensures MatchSizes(stem) == Some(m)
  {
    var c := Composed(m);
    assert c[|c| - 1] == m.tCols[|m.tCols| - 1];
    if stem != c {
      assert stem[..|stem| - 1] == c;
    }
    PeelComposed(m.prefix + "_" + m.sRows + "x" + m.sCols + "_" + m.tRows, 'x', m.tCols);
    PeelComposed(m.prefix + "_" + m.sRows + "x" + m.sCols, '_', m.tRows);
    PeelComposed(m.prefix + "_" + m.sRows, 'x', m.sCols);
    PeelComposed(m.prefix, '_', m.sRows);
  }

  /** parse_filename: the match's groups when the stem matches, otherwise
      the stem and two Nones. */
  function PlotParse(f: string): Parsed
  {
    match MatchSizes(Stem(f))
    case None => Parsed(Stem(f), None, None)
    case Some(m) => Parsed(m.prefix, Some(m.sRows + "x" + m.sCols), Some(m.tRows + "x" + m.tCols))
  }

  /** Either both sizes are found or neither; with sizes, name and sizes
      joined by '_' give the stem back (up to the final line break that `$`
      lets through); without, the name is the whole stem. */
  lemma PlotParseRejoins(f: string)
    ensures var r := PlotParse(f);
      && r.sSize.Some? == r.tSize.Some?
      && (r.sSize.None? ==> r.name == Stem(f))
      && (r.sSize.Some? ==>
            var joined := r.name + "_" + r.sSize.value + "_" + r.tSize.value;
            Stem(f) == joined || Stem(f) == joined + "\n")
  {
    var stem := Stem(f);
    match MatchSizes(stem)
    case None =>
    case Some(m) =>
      ComposedJoined(m);
  }

  lemma ComposedJoined(m: SizeMatch)
    ensures Composed(m) == m.prefix + "_" + (m.sRows + "x" + m.sCols) + "_" + (m.tRows + "x" + m.tCols)
  {
  }

  /** A file whose stem has the sizes at its end yields them. */
  lemma PlotParseSizes(f: string, m: SizeMatch)
    requires SizesName(Stem(f), m)
    ensures PlotParse(f) == Parsed(m.prefix, Some(m.sRows + "x" + m.sCols), Some(m.tRows + "x" + m.tCols))
  {
    MatchSizesComplete(Stem(f), m);
  }

  /** The sizes are found exactly when the stem has the pattern's form. */
  lemma PlotParseFindsSizes(f: string)
    ensures PlotParse(f).sSize.Some? <==> exists m :: SizesName(Stem(f), m)
  {
    if exists m :: SizesName(Stem(f), m) {
      var m :| SizesName(Stem(f), m);
      MatchSizesComplete(Stem(f), m);
    }
  }

  /** Past a directory part ending in '/', the base name is the rest. */
  lemma BasenameAfterDir(dir: string, name: string)
    requires dir != [] && dir[|dir| - 1] == '/' && '/' !in name
    ensures Basename(dir + name) == name
  {
    LastIndexOfAppend(dir, name, '/');
    assert (dir + name)[|dir|..] == name;
  }

  /** A name with one extension free of dots loses exactly that extension. */
  lemma SplitextOneExtension(root: string, ext: string)
    requires forall k :: 0 <= k < |root| ==> root[k] != '/'
    requires forall k :: 0 <= k < |ext| ==> ext[k] != '/'
    requires ext != [] && ext[0] == '.' && forall k :: 0 < k < |ext| ==> ext[k] != '.'
    requires exists i :: 0 <= i < |root| && root[i] != '.'
    ensures SplitextRoot(root + ext) == root
  {
    var p := root + ext;
    forall k | 0 <= k < |p|
      ensures p[k] != '/'
    {
      if k >= |root| {
        assert p[k] == ext[k - |root|];
      }
    }
    assert LastIndexOf(p, '/') == -1;
    forall k | |root| < k < |p|
      ensures p[k] != '.'
    {
      assert p[k] == ext[k - |root|];
    }
    assert p[|root|] == ext[0];
    assert LastIndexOf(p, '.') == |root|;
    var i :| 0 <= i < |root| && root[i] != '.';
    assert p[0..|root|][i] == root[i];
    assert p[..|root|] == root;
  }

  /** The round trip with the CSV writer: for non-negative dimensions and a
      data path without line breaks, parse_filename of the path
      write_to_csv builds gives back the data path with '/' replaced, and
      the two sizes as "<rows>x<cols>". */
  lemma PlotParseCsvPath(dataPath: string, sRows: nat, sCols: nat, tRows: nat, tCols: nat)
    requires '\n' !in dataPath
    ensures PlotParse(CsvPath(dataPath, sRows, sCols, tRows, tCols))
            == Parsed(ReplaceSlash(dataPath),
                      Some(NatToString(sRows) + "x" + NatToString(sCols)),
                      Some(NatToString(tRows) + "x" + NatToString(tCols)))
  {
    var r := ReplaceSlash(dataPath);
    var m := SizeMatch(r, NatToString(sRows), NatToString(sCols), NatToString(tRows), NatToString(tCols));
    var core := Composed(m);
    var name := CsvName(dataPath, sRows, sCols, tRows, tCols);
    assert name == core + ".csv";
    forall i | 0 <= i < |r|
      ensures r[i] != '\n'
    {
      assert dataPath[i] != '\n';
    }
    assert '/' !in NatToString(sRows) && '/' !in NatToString(sCols);
    assert '/' !in NatToString(tRows) && '/' !in NatToString(tCols);
    assert '/' !in core;
    BasenameAfterDir(OutputDir, name);
    assert core[|r|] == '_';
    SplitextOneExtension(core, ".csv");
    MatchSizesComplete(core, m);
  }
}

=== FILE: ssd_metric.dfy ===
/** The sum-of-squared-differences metric of src/ssd.cpp, with exact
    integer arithmetic. */
module SsdMetric {
  import opened Exceptions

  const SizeMismatch: string := "Vector sizes must be the same"

  function SquaredDiff(x: int, y: int): int
  {
    (x - y) * (x - y)
  }

  /** Sum of the squared differences over the indices [lo, hi). */
  function RangeSsd(X: seq<int>, Y: seq<int>, lo: nat, hi: nat): int
    requires |X| == |Y| && lo <= hi <= |X|
    decreases hi - lo
  {
    if lo == hi then 0 else RangeSsd(X, Y, lo, hi - 1) + SquaredDiff(X[hi - 1], Y[hi - 1])
  }

  /** The metric itself: the sum over every index. */
  function Ssd(X: seq<int>, Y: seq<int>): int
    requires |X| == |Y|
  {
    RangeSsd(X, Y, 0, |X|)
  }

  /** compute_ssd: refuses vectors of different sizes before summing,
      otherwise accumulates the squared differences index by index. */
  method ComputeSsd(X: seq<int>, Y: seq<int>) returns (r: Result<int>)
    ensures |X| != |Y| ==> r == Err(InvalidArgument(SizeMismatch))
    ensures |X| == |Y| ==> r == Ok(Ssd(X, Y)) && r.value >= 0
  {
    var n := |X|;
    if n != |Y| {
      return Err(InvalidArgument(SizeMismatch));
    }
    var ssd := 0;
    var i := 0;
    while i < n
      invariant 0 <= i <= n
      invariant ssd == RangeSsd(X, Y, 0, i)
    {
      var diff := X[i] - Y[i];
      ssd := ssd + diff * diff;
      i := i + 1;
    }
    SsdNonNegative(X, Y);
    return Ok(ssd);
  }

  /** A range sum splits at any midpoint. */
  lemma {:induction false} RangeSsdSplit(X: seq<int>, Y: seq<int>, lo: nat, mid: nat, hi: nat)
    requires |X| == |Y| && lo <= mid <= hi <= |X|
    ensures RangeSsd(X, Y, lo, hi) == RangeSsd(X, Y, lo, mid) + RangeSsd(X, Y, mid, hi)
    decreases hi - mid
  {
    if hi > mid {
      RangeSsdSplit(X, Y, lo, mid, hi - 1);
    }
  }

  lemma {:induction false} RangeSsdNonNegative(X: seq<int>, Y: seq<int>, lo: nat, hi: nat)
    requires |X| == |Y| && lo <= hi <= |X|
    ensures RangeSsd(X, Y, lo, hi) >= 0
    decreases hi - lo
  {
    if lo < hi {
      RangeSsdNonNegative(X, Y, lo, hi - 1);
    }
  }

  /** The metric is never negative, and is 0 on empty vectors. */
  lemma SsdNonNegative(X: seq<int>, Y: seq<int>)
    requires |X| == |Y|
    ensures Ssd(X, Y) >= 0
    ensures |X| == 0 ==> Ssd(X, Y) == 0
  {
    RangeSsdNonNegative(X, Y, 0, |X|);
  }

  lemma {:induction false} RangeSsdSymmetric(X: seq<int>, Y: seq<int>, lo: nat, hi: nat)
    requires |X| == |Y| && lo <= hi <= |X|
    ensures RangeSsd(X, Y, lo, hi) == RangeSsd(Y, X, lo, hi)
    decreases hi - lo
  {
    if lo < hi {
      RangeSsdSymmetric(X, Y, lo, hi - 1);
    }
  }

  /** Swapping the arguments does not change the metric. */
  lemma SsdSymmetric(X: seq<int>, Y: seq<int>)
    requires |X| == |Y|
    ensures Ssd(X, Y) == Ssd(Y, X)
  {
    RangeSsdSymmetric(X, Y, 0, |X|);
  }

  lemma {:induction false} RangeSsdZero(X: seq<int>, Y: seq<int>, lo: nat, hi: nat)
    requires |X| == |Y| && lo <= hi <= |X|
    ensures RangeSsd(X, Y, lo, hi) == 0 <==> forall i :: lo <= i < hi ==> X[i] == Y[i]
    decreases hi - lo
  {
    if lo < hi {
      RangeSsdZero(X, Y, lo, hi - 1);
      RangeSsdNonNegative(X, Y, lo, hi - 1);
      var d := X[hi - 1] - Y[hi - 1];
      assert d != 0 ==> d * d > 0;
    }
  }

  /** The metric is 0 exactly when the two vectors are equal. */
  lemma SsdZeroIffEqual(X: seq<int>, Y: seq<int>)
    requires |X| == |Y|
    ensures Ssd(X, Y) == 0 <==> X == Y
  {
    RangeSsdZero(X, Y, 0, |X|);
    if Ssd(X, Y) == 0 {
      assert forall i :: 0 <= i < |X| ==> X[i] == Y[i];
    }
  }
}

=== FILE: ssd_parallel.dfy ===
/** The parallel sum-of-squared-differences of ssd.cpp. Threads become a
    sequential loop over per-chunk records; the core count reported by the
    system and the number of thread creations that succeed are parameters. */
module SsdParallel {
  import opened Exceptions
  import opened Chunking
  import SsdMetric

  const SizeMismatch: string := "向量大小必須相同"
  const ThreadCreationFailed: string := "無法創建執行緒"

  /** 2^64: a `long` converted to `size_t` is taken modulo this. */
  const SizeModulus: int := 0x1_0000_0000_0000_0000

  /** The per-worker record: its index range and the partial sum it writes. */
  datatype SsdThreadData = SsdThreadData(start: nat, end: nat, ssd: int)

  /** Number of workers for `n` items: the core count (converted to
      `size_t` unchecked), capped at n / 16 + 1, and at least 1. */
  function SsdThreadCount(cores: int, n: nat): (k: nat)
    ensures 1 <= k <= n / 16 + 1
    ensures 0 < cores < SizeModulus ==> k <= cores
    ensures n >= 1 ==> k <= n && n / k >= 1
    ensures cores % SizeModulus == 0 ==> k == 1
    ensures cores % SizeModulus >= 1 ==> k == cores % SizeModulus || k == n / 16 + 1
    // A failing sysconf (-1) wraps to 2^64 - 1, so the cap decides.
    ensures cores == -1 && n < SizeModulus ==> k == n / 16 + 1
  {
    var c := cores % SizeModulus;
    var m := if c < n / 16 + 1 then c else n / 16 + 1;
    var k := if m < 1 then 1 else m;
    if n >= 1 then QuotientPositive(n, k); k else k
  }

  /** ssd_thread_func: the partial sum over the worker's own range. */
  method SsdThreadFunc(X: seq<int>, Y: seq<int>, start: nat, end: nat) returns (sum: int)
    requires |X| == |Y| && start <= end <= |X|
    ensures sum == SsdMetric.RangeSsd(X, Y, start, end)
  {
    sum := 0;
    var i := start;
    while i < end
      invariant start <= i <= end
      invariant sum == SsdMetric.RangeSsd(X, Y, start, i)
    {
      var diff := X[i] - Y[i];
      sum := sum + diff * diff;
      i := i + 1;
    }
  }

  /** compute_ssd as ssd.cpp has it (its own copy, with its own message). */
  method ComputeSsd(X: seq<int>, Y: seq<int>) returns (r: Result<int>)
    ensures |X| != |Y| ==> r == Err(InvalidArgument(SizeMismatch))
    ensures |X| == |Y| ==> r == Ok(SsdMetric.Ssd(X, Y))
  {
    var n := |X|;
    if n != |Y| {
      return Err(InvalidArgument(SizeMismatch));
    }
    var ssd := 0;
    var i := 0;
    while i < n
      invariant 0 <= i <= n
      invariant ssd == SsdMetric.RangeSsd(X, Y, 0, i)
    {
      var diff := X[i] - Y[i];
      ssd := ssd + diff * diff;
      i := i + 1;
    }
    return Ok(ssd);
  }

  /** compute_ssd_parallel. Thread creation t succeeds exactly when
      t < spawnable; the first failure throws. When every worker starts,
      adding the partial sums in chunk order gives the sequential metric. */
  method ComputeSsdParallel(X: seq<int>, Y: seq<int>, cores: int, spawnable: nat) returns (r: Result<int>)
    ensures |X| != |Y| ==> r == Err(InvalidArgument(SizeMismatch))
    ensures |X| == |Y| && |X| == 0 ==> r == Ok(0)
    ensures |X| == |Y| && |X| > 0 ==>
              r == if spawnable < SsdThreadCount(cores, |X|) then Err(RuntimeError(ThreadCreationFailed))
                   else Ok(SsdMetric.Ssd(X, Y))
  {
    var n := |X|;
    if n != |Y| {
      return Err(InvalidArgument(SizeMismatch));
    }
    if n == 0 {
      return Ok(0);
    }
    var numCores := cores;
    var numThreads := numCores % SizeModulus;
    if n / 16 + 1 < numThreads {
      numThreads := n / 16 + 1;
    }
    if numThreads < 1 {
      numThreads := 1;
    }
    assert numThreads == SsdThreadCount(cores, n);
    var threadData := new SsdThreadData[numThreads](_ => SsdThreadData(0, 0, 0));
    var chunkSize := n / numThreads;

    var i := 0;
    while i < numThreads
      invariant 0 <= i <= numThreads
      invariant forall u :: 0 <= u < i ==>
                  threadData[u].start == ChunkStart(n, numThreads, u) && threadData[u].end == ChunkEnd(n, numThreads, u)
    {
      threadData[i] := SsdThreadData(i * chunkSize, if i == numThreads - 1 then n else (i + 1) * chunkSize, 0);
      i := i + 1;
    }

    i := 0;
    while i < numThreads
      invariant 0 <= i <= numThreads && i <= spawnable
      invariant forall u :: 0 <= u < numThreads ==>
                  threadData[u].start == ChunkStart(n, numThreads, u) && threadData[u].end == ChunkEnd(n, numThreads, u)
      invariant forall u :: 0 <= u < i ==>
                  threadData[u].ssd == SsdMetric.RangeSsd(X, Y, ChunkStart(n, numThreads, u), ChunkEnd(n, numThreads, u))
    {
      if i >= spawnable {
        return Err(RuntimeError(ThreadCreationFailed));
      }
      var partial := SsdThreadFunc(X, Y, threadData[i].start, threadData[i].end);
      threadData[i] := threadData[i].(ssd := partial);
      i := i + 1;
    }

    var ssd := 0;
    i := 0;
    while i < numThreads
      invariant 0 <= i <= numThreads
      invariant ssd == PartialSums(X, Y, numThreads, i)
    {
      ssd := ssd + threadData[i].ssd;
      i := i + 1;
    }
    PartialSumsAddUp(X, Y, numThreads, numThreads);
    return Ok(ssd);
  }

  /** The partial sums of the chunks, added in chunk order, equal the
      sequential metric: the partition covers every index exactly once. */
  lemma {:induction false} PartialSumsAddUp(X: seq<int>, Y: seq<int>, k: nat, m: nat)
    requires |X| == |Y| && 1 <= k && m <= k
    ensures PartialSums(X, Y, k, m) == SsdMetric.RangeSsd(X, Y, 0, if m == 0 then 0 else ChunkEnd(|X|, k, m - 1))
    ensures m == k ==> PartialSums(X, Y, k, m) == SsdMetric.Ssd(X, Y)
  {
    if m > 0 {
      PartialSumsAddUp(X, Y, k, m - 1);
      if m > 1 {
        ChunksTouch(|X|, k, m - 1);
      }
      SsdMetric.RangeSsdSplit(X, Y, 0, ChunkStart(|X|, k, m - 1), ChunkEnd(|X|, k, m - 1));
    }
  }

  /** Sum of the partial results of the first `m` of `k` chunks. */
  function PartialSums(X: seq<int>, Y: seq<int>, k: nat, m: nat): int
    requires |X| == |Y| && 1 <= k && m <= k
  {
    if m == 0 then 0
    else
      PartialSums(X, Y, k, m - 1) + SsdMetric.RangeSsd(X, Y, ChunkStart(|X|, k, m - 1), ChunkEnd(|X|, k, m - 1))
  }
}

=== FILE: utils.dfy ===
/** The text handling around the search engine (src/utils.cpp): dimensions
    from file names, reading a comma-separated digit matrix, the position
    list serialiser and the CSV output path and record. Files are given as
    their contents; the streams, the directory scan and the console are not
    modelled. */
module Utils {
  import opened Exceptions
  import opened Grid

  /** The range of a 32-bit `int`, outside which std::stoi throws. */
  const IntMin: int := -0x8000_0000
  const IntMax: int := 0x7fff_ffff

  /** The `what()` text of the exceptions std::stoi throws. */
  const StoiWhat: string := "stoi"

  const FilenameFormatError: string := "Invalid filename format: "
  const CouldNotOpen: string := "Could not open file: "
  const InvalidNumberFormat: string := "Invalid number format in file: "
  const ValuesOutOfRange: string := "Values must be between 0 and 9 in file: "
  const InconsistentColumns: string := "Inconsistent number of columns in file: "
  const DimensionsMismatch: string := "Array dimensions do not match filename: "
  const DirectoryFailed: string := "Failed to create outputs directory"
  const CsvOpenFailed: string := "Failed to open CSV file: "
  const CsvHeader: string := "methods,threads,best_positions,best_value,cost_time\n"
  const OutputDir: string := "outputs/"

  // ---------------------------------------------------------------------
  // Decimal digits

  predicate IsDigit(c: char)
  {
    '0' <= c <= '9'
  }

  predicate AllDigits(s: string)
  {
    forall i :: 0 <= i < |s| ==> IsDigit(s[i])
  }

  /** `t` is a suffix of `s`. */
  predicate EndsWith(s: string, t: string)
  {
    |t| <= |s| && s[|s| - |t|..] == t
  }

  /** The number a run of decimal digits denotes. */
  function DigitsValue(s: string): nat
    requires AllDigits(s)
  {
    if s == [] then 0 else DigitsValue(s[..|s| - 1]) * 10 + (s[|s| - 1] as int - '0' as int)
  }

  function DigitChar(d: nat): char
    requires d < 10
  {
    ('0' as int + d) as char
  }

  /** std::to_string of a non-negative int: shortest decimal, no leading zero. */
  function NatToString(n: nat): (s: string)
    ensures s != [] && AllDigits(s)
    ensures (s[0] == '0') == (n == 0)
    decreases n
  {
    if n < 10 then [DigitChar(n)] else NatToString(n / 10) + [DigitChar(n % 10)]
  }

  /** std::to_string of an int. */
  function IntToString(n: int): (s: string)
    ensures s != [] && forall i :: 0 <= i < |s| ==> IsDigit(s[i]) || s[i] == '-'
  {
    if n < 0 then "-" + NatToString(-n) else NatToString(n)
  }

  /** Reading back the digits of a number gives the number. */
  lemma {:induction false} NatToStringValue(n: nat)
    ensures DigitsValue(NatToString(n)) == n
    decreases n
  {
    if n >= 10 {
      NatToStringValue(n / 10);
      var s := NatToString(n);
      assert s[..|s| - 1] == NatToString(n / 10);
    }
  }

  /** Length of the longest run of digits at the end of `s`. */
  function TrailingDigits(s: string): (n: nat)
    ensures n <= |s| && AllDigits(s[|s| - n..])
    ensures n < |s| ==> !IsDigit(s[|s| - n - 1])
  {
    if s != [] && IsDigit(s[|s| - 1]) then 1 + TrailingDigits(s[..|s| - 1]) else 0
  }

  /** Length of the longest run of digits at the start of `s`. */
  function LeadingDigits(s: string): (n: nat)
    ensures n <= |s| && AllDigits(s[..n])
    ensures n < |s| ==> !IsDigit(s[n])
  {
    if s != [] && IsDigit(s[0]) then 1 + LeadingDigits(s[1..]) else 0
  }

  /** A digit run that follows a non-digit is the trailing run. */
  lemma {:induction false} TrailingDigitsExact(x: string, ds: string)
    requires AllDigits(ds)
    requires x == [] || !IsDigit(x[|x| - 1])
    ensures TrailingDigits(x + ds) == |ds|
    decreases |ds|
  {
    if ds == [] {
      assert x + ds == x;
    } else {
      var front := ds[..|ds| - 1];
      assert (x + ds)[..|x + ds| - 1] == x + front;
      TrailingDigitsExact(x, front);
    }
  }

  /** A digit run followed by a non-digit is the leading run. */
  lemma {:induction false} LeadingDigitsExact(ds: string, rest: string)
    requires AllDigits(ds)
    requires rest == [] || !IsDigit(rest[0])
    ensures LeadingDigits(ds + rest) == |ds|
    decreases |ds|
  {
    if ds == [] {
      assert ds + rest == rest;
    } else {
      assert (ds + rest)[1..] == ds[1..] + rest;
      LeadingDigitsExact(ds[1..], rest);
    }
  }

  /** Splits `s` as <before> `sep` <digits>, the digits being the trailing
      run; None when there is no such run or it is not preceded by `sep`. */
  function Peel(s: string, sep: char): (r: Option<(string, string)>)
    ensures r.Some? ==> r.value.1 != [] && AllDigits(r.value.1) && s == r.value.0 + [sep] + r.value.1
  {
    var n := TrailingDigits(s);
    if n == 0 || n == |s| || s[|s| - n - 1] != sep then None
    else
      assert s == s[..|s| - n - 1] + [sep] + s[|s| - n..];
      Some((s[..|s| - n - 1], s[|s| - n..]))
  }

  /** Peel undoes the composition it describes. */
  lemma PeelComposed(before: string, sep: char, ds: string)
    requires ds != [] && AllDigits(ds) && !IsDigit(sep)
    ensures Peel(before + [sep] + ds, sep) == Some((before, ds))
  {
    var s := before + [sep] + ds;
    TrailingDigitsExact(before + [sep], ds);
    assert s[..|s| - |ds| - 1] == before;
    assert s[|s| - |ds|..] == ds;
  }

  // ---------------------------------------------------------------------
  // std::stoi

  /** The characters C's isspace accepts: space, \t, \n, \v, \f, \r. */
  predicate IsSpace(c: char)
  {
    c == ' ' || '\t' <= c <= '\r'
  }

  /** Number of leading white-space characters. */
  function SkipSpace(s: string): (k: nat)
    ensures k <= |s| && forall i :: 0 <= i < k ==> IsSpace(s[i])
    ensures k < |s| ==> !IsSpace(s[k])
  {
    if s != [] && IsSpace(s[0]) then 1 + SkipSpace(s[1..]) else 0
  }

  /** std::stoi in base 10: skip white space, an optional sign, then the
      longest digit run; anything after it is ignored. No digits throws
      invalid_argument, a value outside `int` throws out_of_range. */
  function Stoi(s: string): (r: Result<int>)
    ensures r.Ok? ==> IntMin <= r.value <= IntMax
    ensures r.Err? ==> r.error == InvalidArgument(StoiWhat) || r.error == OutOfRange(StoiWhat)
  {
    var rest := s[SkipSpace(s)..];
    var signed := |rest| > 0 && (rest[0] == '-' || rest[0] == '+');
    var body := if signed then rest[1..] else rest;
    var n := LeadingDigits(body);
    if n == 0 then Err(InvalidArgument(StoiWhat))
    else
      var v: int := if signed && rest[0] == '-' then -(DigitsValue(body[..n]) as int) else DigitsValue(body[..n]);
      if v < IntMin || v > IntMax then Err(OutOfRange(StoiWhat)) else Ok(v)
  }

  /** A digit run followed by anything that is not a digit reads as its
      value, or is out of range. */
  lemma StoiDigitRun(ds: string, rest: string)
    requires ds != [] && AllDigits(ds)
    requires rest == [] || !IsDigit(rest[0])
    ensures Stoi(ds + rest) == if DigitsValue(ds) <= IntMax then Ok(DigitsValue(ds)) else Err(OutOfRange(StoiWhat))
  {
    var s := ds + rest;
    assert s[0] == ds[0];
    assert SkipSpace(s) == 0;
    assert s[0..] == s;
    LeadingDigitsExact(ds, rest);
    assert s[..|ds|] == ds;
  }

  /** A digit run on its own reads as its value, or is out of range. */
  lemma StoiDigits(ds: string)
    requires ds != [] && AllDigits(ds)
    ensures Stoi(ds) == if DigitsValue(ds) <= IntMax then Ok(DigitsValue(ds)) else Err(OutOfRange(StoiWhat))
  {
    StoiDigitRun(ds, []);
    assert ds + [] == ds;
  }

  /** std::stoi reads back what std::to_string wrote. */
  lemma StoiToString(n: int)
    requires IntMin <= n <= IntMax
    ensures Stoi(IntToString(n)) == Ok(n)
  {
    var s := IntToString(n);
    if n < 0 {
      var ds := NatToString(-n);
      NatToStringValue(-n);
      assert s[SkipSpace(s)..] == s;
      assert s[1..] == ds + [];
      LeadingDigitsExact(ds, []);
      assert s[1..][..|ds|] == ds;
    } else {
      NatToStringValue(n);
      StoiDigitRun(s, []);
      assert s + [] == s;
    }
  }

  /** A text without any digit is an invalid argument. */
  lemma StoiNoDigits(s: string)
    requires forall i :: 0 <= i < |s| ==> !IsDigit(s[i])
    ensures Stoi(s) == Err(InvalidArgument(StoiWhat))
  {
    var rest := s[SkipSpace(s)..];
    if |rest| > 1 {
      assert !IsDigit(rest[1]);
    }
    if |rest| > 0 {
      assert !IsDigit(rest[0]);
    }
  }

  // ---------------------------------------------------------------------
  // parse_filename

  /** A match of `_(\d+)_(\d+)\.txt$`: the text before it and the groups. */
  datatype DimsMatch = DimsMatch(before: string, rowsText: string, colsText: string)

  /** The name is `before` followed by "_<rows>_<cols>.txt". */
  predicate DimsName(filename: string, m: DimsMatch)
  {
    && m.rowsText != [] && AllDigits(m.rowsText) && m.colsText != [] && AllDigits(m.colsText)
    && filename == m.before + "_" + m.rowsText + "_" + m.colsText + ".txt"
  }

  /** The search for the end-anchored pattern; both groups are digit runs
      bounded by underscores, so they are the last two such runs. */
  function MatchDims(filename: string): (r: Option<DimsMatch>)
    ensures r.Some? ==> DimsName(filename, r.value)
  {
    if |filename| < 4 || filename[|filename| - 4..] != ".txt" then None
    else
      var stem := filename[..|filename| - 4];
      assert filename == stem + ".txt";
      match Peel(stem, '_')
      case None => None
      case Some((front, d2)) =>
        match Peel(front, '_')
        case None => None
        case Some((before, d1)) => Some(DimsMatch(before, d1, d2))
  }

  /** Every name of that form matches, and with exactly its parts. */
  lemma MatchDimsComplete(filename: string, m: DimsMatch)
    requires DimsName(filename, m)
    ensures MatchDims(filename) == Some(m)
  {
    var stem := m.before + "_" + m.rowsText + "_" + m.colsText;
    assert filename == stem + ".txt";
    assert filename[..|filename| - 4] == stem;
    assert filename[|filename| - 4..] == ".txt";
    PeelComposed(m.before + "_" + m.rowsText, '_', m.colsText);
    PeelComposed(m.before, '_', m.rowsText);
  }

  /** What parse_filename leaves behind: whether it threw, and the values
      of its two reference parameters afterwards. */
  datatype Assigned = Assigned(outcome: Outcome, rows: int, cols: int)

  /** parse_filename(filename, rows, cols) on entry values rows and cols.
      rows is assigned before cols is converted, so a second group out of
      `int` range leaves rows updated and cols unchanged. */
  function ParseFilename(filename: string, rows: int, cols: int): (r: Assigned)
    ensures MatchDims(filename).None? ==> r == Assigned(Fail(RuntimeError(FilenameFormatError + filename)), rows, cols)
    ensures r.outcome.Pass? ==>
              && MatchDims(filename).Some?
              && r.rows == DigitsValue(MatchDims(filename).value.rowsText)
              && r.cols == DigitsValue(MatchDims(filename).value.colsText)
    ensures MatchDims(filename).Some? ==>
              (r.outcome.Pass? <==>
                 DigitsValue(MatchDims(filename).value.rowsText) <= IntMax
                 && DigitsValue(MatchDims(filename).value.colsText) <= IntMax)
  {
    match MatchDims(filename)
    case None => Assigned(Fail(RuntimeError(FilenameFormatError + filename)), rows, cols)
    case Some(m) =>
      StoiDigits(m.rowsText);
      StoiDigits(m.colsText);
      match Stoi(m.rowsText)
      case Err(e) => Assigned(Fail(e), rows, cols)
      case Ok(r1) =>
        match Stoi(m.colsText)
        case Err(e) => Assigned(Fail(e), r1, cols)
        case Ok(r2) => Assigned(Pass, r1, r2)
  }

  /** A name built from two dimensions parses back to them. */
  lemma ParseFilenameDims(prefix: string, a: nat, b: nat, rows: int, cols: int)
    requires a <= IntMax && b <= IntMax
    ensures ParseFilename(prefix + "_" + NatToString(a) + "_" + NatToString(b) + ".txt", rows, cols)
            == Assigned(Pass, a, b)
  {
    var f := prefix + "_" + NatToString(a) + "_" + NatToString(b) + ".txt";
    MatchDimsComplete(f, DimsMatch(prefix, NatToString(a), NatToString(b)));
    NatToStringValue(a);
    NatToStringValue(b);
    StoiDigits(NatToString(a));
    StoiDigits(NatToString(b));
  }

  /** rows is written before cols is converted: a column count beyond `int`
      throws out_of_range with rows already updated. */
  lemma ParseFilenamePartial(prefix: string, a: nat, b: nat, rows: int, cols: int)
    requires a <= IntMax < b
    ensures ParseFilename(prefix + "_" + NatToString(a) + "_" + NatToString(b) + ".txt", rows, cols)
            == Assigned(Fail(OutOfRange(StoiWhat)), a, cols)
  {
    var f := prefix + "_" + NatToString(a) + "_" + NatToString(b) + ".txt";
    MatchDimsComplete(f, DimsMatch(prefix, NatToString(a), NatToString(b)));
    NatToStringValue(a);
    NatToStringValue(b);
    StoiDigits(NatToString(a));
    StoiDigits(NatToString(b));
  }

  // ---------------------------------------------------------------------
  // Splitting with std::getline

  /** Parts joined with the delimiter between them. */
  function Join(parts: seq<string>, d: char): string
    requires |parts| >= 1
  {
    if |parts| == 1 then parts[0] else parts[0] + [d] + Join(parts[1..], d)
  }

  /** Position of the first `d` in `s`. */
  function IndexOf(s: string, d: char): (k: nat)
    requires d in s
    ensures k < |s| && s[k] == d && d !in s[..k]
  {
    if s[0] == d then 0 else 1 + IndexOf(s[1..], d)
  }

  /** The first `d` after a `d`-free prefix is the one right after it. */
  lemma {:induction false} IndexOfAfter(p: string, d: char, rest: string)
    requires d !in p
    ensures IndexOf(p + [d] + rest, d) == |p|
    decreases |p|
  {
    if p != [] {
      assert (p + [d] + rest)[1..] == p[1..] + [d] + rest;
      IndexOfAfter(p[1..], d, rest);
    }
  }

  /** Every field between delimiters, empty ones included. */
  function Split(s: string, d: char): (parts: seq<string>)
    ensures |parts| >= 1 && Join(parts, d) == s
    ensures forall i :: 0 <= i < |parts| ==> d !in parts[i]
    decreases |s|
  {
    if d !in s then [s]
    else
      var k := IndexOf(s, d);
      assert s == s[..k] + [d] + s[k + 1..];
      [s[..k]] + Split(s[k + 1..], d)
  }

  /** Splitting undoes joining parts that are free of the delimiter. */
  lemma {:induction false} SplitJoin(parts: seq<string>, d: char)
    requires |parts| >= 1 && forall i :: 0 <= i < |parts| ==> d !in parts[i]
    ensures Split(Join(parts, d), d) == parts
    decreases |parts|
  {
    if |parts| > 1 {
      var rest := Join(parts[1..], d);
      var s := parts[0] + [d] + rest;
      IndexOfAfter(parts[0], d, rest);
      assert s[..|parts[0]|] == parts[0];
      assert s[|parts[0]| + 1..] == rest;
      SplitJoin(parts[1..], d);
    }
  }

  /** The pieces repeated std::getline calls with delimiter `d` return: the
      fields, except that an empty last field is not returned (so the empty
      text has no pieces). */
  function GetlineSplit(s: string, d: char): (r: seq<string>)
    ensures forall i :: 0 <= i < |r| ==> d !in r[i]
    ensures (r == []) == (s == [])
  {
    var parts := Split(s, d);
    if parts[|parts| - 1] == [] then
      assert s != [] ==> |parts| > 1;
      parts[..|parts| - 1]
    else parts
  }

  /** Delimiter-free pieces, each followed by the delimiter, come back. */
  lemma GetlineSplitTerminated(pieces: seq<string>, d: char)
    requires |pieces| >= 1 && forall i :: 0 <= i < |pieces| ==> d !in pieces[i]
    ensures GetlineSplit(Join(pieces + [""], d), d) == pieces
  {
    SplitJoin(pieces + [""], d);
    assert (pieces + [""])[..|pieces|] == pieces;
  }

  /** The lines std::getline reads from a file's contents. */
  function Lines(text: string): seq<string>
  {
    GetlineSplit(text, '\n')
  }

  /** The comma-separated tokens std::getline reads from one line. */
  function Tokens(line: string): seq<string>
  {
    GetlineSplit(line, ',')
  }

  /** The tokens of every line. */
  function TokenRows(lines: seq<string>): seq<seq<string>>
  {
    seq(|lines|, r requires 0 <= r < |lines| => Tokens(lines[r]))
  }

  // ---------------------------------------------------------------------
  // read_array

  /** One token of read_array: stoi, then the 0..9 check. invalid_argument
      is turned into the format message; out_of_range escapes as it is. */
  function ParseCell(filename: string, token: string): (r: Result<int>)
    ensures r.Ok? <==> Stoi(token).Ok? && 0 <= Stoi(token).value <= 9
    ensures r.Ok? ==> r.value == Stoi(token).value
  {
    match Stoi(token)
    case Err(InvalidArgument(_)) => Err(RuntimeError(InvalidNumberFormat + filename))
    case Err(e) => Err(e)
    case Ok(v) => if v < 0 || v > 9 then Err(RuntimeError(ValuesOutOfRange + filename)) else Ok(v)
  }

  /** The three ways a token fails and the exception each one raises. */
  lemma ParseCellErrors(filename: string, token: string)
    ensures Stoi(token) == Err(InvalidArgument(StoiWhat)) ==>
              ParseCell(filename, token) == Err(RuntimeError(InvalidNumberFormat + filename))
    ensures Stoi(token) == Err(OutOfRange(StoiWhat)) ==> ParseCell(filename, token) == Err(OutOfRange(StoiWhat))
    ensures Stoi(token).Ok? && !(0 <= Stoi(token).value <= 9) ==>
              ParseCell(filename, token) == Err(RuntimeError(ValuesOutOfRange + filename))
  {
  }

  /** A lone digit, possibly followed by junk stoi ignores, is its value;
      an empty token is an invalid number. */
  lemma ParseCellDigit(filename: string, c: char, junk: string)
    requires IsDigit(c) && (junk == [] || !IsDigit(junk[0]))
    ensures ParseCell(filename, [c] + junk) == Ok(c as int - '0' as int)
    ensures ParseCell(filename, "") == Err(RuntimeError(InvalidNumberFormat + filename))
  {
    StoiDigitRun([c], junk);
    assert [c][..0] == [];
    StoiNoDigits("");
  }

  /** The token loop over one line: the values, or the first failure. */
  function ParseRow(filename: string, tokens: seq<string>): (r: Result<seq<int>>)
    ensures r.Ok? ==> |r.value| == |tokens|
  {
    if tokens == [] then Ok([])
    else
      match ParseRow(filename, tokens[..|tokens| - 1])
      case Err(e) => Err(e)
      case Ok(row) =>
        match ParseCell(filename, tokens[|tokens| - 1])
        case Err(e) => Err(e)
        case Ok(v) => Ok(row + [v])
  }

  /** A row parses exactly when each of its tokens does, and then holds
      their values in order, each a digit 0..9. */
  lemma {:induction false} ParseRowCells(filename: string, tokens: seq<string>)
    ensures ParseRow(filename, tokens).Ok? <==> forall c :: 0 <= c < |tokens| ==> ParseCell(filename, tokens[c]).Ok?
    ensures ParseRow(filename, tokens).Ok? ==>
              forall c :: 0 <= c < |tokens| ==> ParseCell(filename, tokens[c]) == Ok(ParseRow(filename, tokens).value[c])
    ensures ParseRow(filename, tokens).Ok? ==> forall v :: v in ParseRow(filename, tokens).value ==> 0 <= v <= 9
    decreases |tokens|
  {
    if tokens != [] {
      var front := tokens[..|tokens| - 1];
      ParseRowCells(filename, front);
      assert forall c :: 0 <= c < |front| ==> front[c] == tokens[c];
    }
  }

  /** The token loop stops at the first token that fails, with its error. */
  lemma {:induction false} RowFailsAt(filename: string, tokens: seq<string>, t: nat)
    requires t < |tokens| && ParseRow(filename, tokens[..t]).Ok? && ParseCell(filename, tokens[t]).Err?
    ensures ParseRow(filename, tokens) == Err(ParseCell(filename, tokens[t]).error)
    decreases |tokens| - t
  {
    var front := tokens[..|tokens| - 1];
    if t + 1 < |tokens| {
      assert front[..t] == tokens[..t] && front[t] == tokens[t];
      RowFailsAt(filename, front, t);
    } else {
      assert front == tokens[..t];
    }
  }

  /** The token loop of read_array: stoi each token, turn invalid_argument
      into the format message, reject values outside 0..9, collect. */
  method ReadRow(filename: string, tokens: seq<string>) returns (r: Result<seq<int>>)
    ensures r == ParseRow(filename, tokens)
  {
    var row := [];
    var t := 0;
    while t < |tokens|
      invariant 0 <= t <= |tokens|
      invariant ParseRow(filename, tokens[..t]) == Ok(row)
    {
      assert tokens[..t + 1][..t] == tokens[..t];
      var parsed := Stoi(tokens[t]);
      if parsed.Err? {
        RowFailsAt(filename, tokens, t);
        if parsed.error.InvalidArgument? {
          return Err(RuntimeError(InvalidNumberFormat + filename));
        }
        return Err(parsed.error);
      }
      var val := parsed.value;
      if val < 0 || val > 9 {
        RowFailsAt(filename, tokens, t);
        return Err(RuntimeError(ValuesOutOfRange + filename));
      }
      row := row + [val];
      t := t + 1;
    }
    assert tokens[..t] == tokens;
    return Ok(row);
  }

  /** The result of the token loop for every line. */
  function RowResults(filename: string, rows: seq<seq<string>>): seq<Result<seq<int>>>
  {
    seq(|rows|, r requires 0 <= r < |rows| => ParseRow(filename, rows[r]))
  }

  lemma RowResultAt(filename: string, lines: seq<string>, n: nat)
    requires n < |lines|
    ensures RowResults(filename, TokenRows(lines))[n] == ParseRow(filename, Tokens(lines[n]))
  {
  }

  /** What read_array has done after some lines: values appended so far,
      rows and cols counted so far, and whether it has thrown. */
  datatype Progress = Progress(values: seq<int>, rows: int, cols: int, status: Outcome)

  /** One line of read_array after the state `p`, given the result of its
      token loop: nothing once it has thrown; otherwise a failed row throws,
      a row wider or narrower than the first throws, and any other row is
      counted and appended. */
  function LoadLine(filename: string, p: Progress, parsed: Result<seq<int>>): Progress
  {
    if p.status.Fail? then p
    else
      match parsed
      case Err(e) => p.(status := Fail(e))
      case Ok(row) =>
        if p.cols != -1 && |row| != p.cols then p.(status := Fail(RuntimeError(InconsistentColumns + filename)))
        else Progress(p.values + row, p.rows + 1, if p.cols == -1 then |row| else p.cols, Pass)
  }

  /** The line loop of read_array, from rows = 0 and cols = -1. */
  function Load(filename: string, results: seq<Result<seq<int>>>): (p: Progress)
    decreases |results|
  {
    if results == [] then Progress([], 0, -1, Pass)
    else LoadLine(filename, Load(filename, results[..|results| - 1]), results[|results| - 1])
  }

  lemma LoadNext(filename: string, results: seq<Result<seq<int>>>, n: nat)
    requires n < |results|
    ensures Load(filename, results[..n + 1]) == LoadLine(filename, Load(filename, results[..n]), results[n])
  {
    assert results[..n + 1][..n] == results[..n];
  }

  /** Once read_array has thrown, later lines change nothing. */
  lemma {:induction false} LoadFailSticks(filename: string, results: seq<Result<seq<int>>>, n: nat)
    requires n <= |results| && Load(filename, results[..n]).status.Fail?
    ensures Load(filename, results) == Load(filename, results[..n])
    decreases |results| - n
  {
    if n < |results| {
      LoadNext(filename, results, n);
      LoadFailSticks(filename, results, n + 1);
    } else {
      assert results[..n] == results;
    }
  }

  /** read_array as a whole: the exception it throws, if any, and the
      array afterwards. `content` is None when the file cannot be opened. */
  function ReadArrayResult(filename: string, content: Option<string>, vec: seq<int>,
                           expectedRows: int, expectedCols: int): (Outcome, seq<int>)
  {
    match content
    case None => (Fail(RuntimeError(CouldNotOpen + filename)), vec)
    case Some(text) =>
      var p := Load(filename, RowResults(filename, TokenRows(Lines(text))));
      if p.status.Fail? then (p.status, vec + p.values)
      else if p.rows != expectedRows || p.cols != expectedCols then
        (Fail(RuntimeError(DimensionsMismatch + filename)), vec + p.values)
      else (Pass, vec + p.values)
  }

  /** The copy loop at the end of each line of read_array: every value
      of the row is pushed onto the array in order. */
  method PushAll(vec: seq<int>, row: seq<int>) returns (out: seq<int>)
    ensures out == vec + row
  {
    out := vec;
    var k := 0;
    while k < |row|
      invariant 0 <= k <= |row|
      invariant out == vec + row[..k]
    {
      TakeNext(row, k);
      AppendAssoc(vec, row[..k], [row[k]]);
      out := out + [row[k]];
      k := k + 1;
    }
    assert row[..k] == row;
  }

  /** read_array: for each line the token loop, the column check, then
      the row's values pushed onto the array one by one. */
  method ReadArray(filename: string, content: Option<string>, vec: seq<int>, expectedRows: int, expectedCols: int)
    returns (outcome: Outcome, arrayOut: seq<int>)
    ensures (outcome, arrayOut) == ReadArrayResult(filename, content, vec, expectedRows, expectedCols)
  {
    if content.None? {
      return Fail(RuntimeError(CouldNotOpen + filename)), vec;
    }
    var lines := Lines(content.value);
    ghost var results := RowResults(filename, TokenRows(lines));
    ghost var loaded: seq<int> := [];
    arrayOut := vec;
    var rows := 0;
    var cols := -1;
    var n := 0;
    while n < |lines|
      invariant 0 <= n <= |lines|
      invariant Load(filename, results[..n]) == Progress(loaded, rows, cols, Pass)
      invariant arrayOut == vec + loaded
    {
      LoadNext(filename, results, n);
      RowResultAt(filename, lines, n);
      var parsed := ReadRow(filename, Tokens(lines[n]));
      if parsed.Err? {
        LoadFailSticks(filename, results, n + 1);
        return Fail(parsed.error), arrayOut;
      }
      var row := parsed.value;
      if cols == -1 {
        cols := |row|;
      } else if |row| != cols {
        LoadFailSticks(filename, results, n + 1);
        return Fail(RuntimeError(InconsistentColumns + filename)), arrayOut;
      }
      arrayOut := PushAll(arrayOut, row);
      AppendAssoc(vec, loaded, row);
      loaded := loaded + row;
      rows := rows + 1;
      n := n + 1;
    }
    assert results[..n] == results;
    if rows != expectedRows || cols != expectedCols {
      return Fail(RuntimeError(DimensionsMismatch + filename)), arrayOut;
    }
    return Pass, arrayOut;
  }

  /** The values of the rows that parsed (an empty row for one that did not). */
  function RowValues(results: seq<Result<seq<int>>>): seq<seq<int>>
  {
    seq(|results|, r requires 0 <= r < |results| => if results[r].Ok? then results[r].value else [])
  }

  /** Rows laid end to end, first row first. */
  function Flatten(rows: seq<seq<int>>): seq<int>
  {
    if rows == [] then [] else rows[0] + Flatten(rows[1..])
  }

  lemma {:induction false} FlattenAppend(rows: seq<seq<int>>, row: seq<int>)
    ensures Flatten(rows + [row]) == Flatten(rows) + row
    decreases |rows|
  {
    if rows == [] {
      assert [row][1..] == [];
    } else {
      assert (rows + [row])[1..] == rows[1..] + [row];
      FlattenAppend(rows[1..], row);
    }
  }

  /** Every line parsed and has as many values as the first one. */
  predicate WellFormed(results: seq<Result<seq<int>>>)
  {
    && (forall r :: 0 <= r < |results| ==> results[r].Ok?)
    && (forall r :: 0 <= r < |results| ==> |results[r].value| == |results[0].value|)
  }

  /** The line loop finishes without throwing exactly on well-formed input,
      and then it has counted every line, taken the first line's width, and
      collected the values in row-major order. */
  lemma {:induction false} LoadWellFormed(filename: string, results: seq<Result<seq<int>>>)
    ensures Load(filename, results).status.Pass? <==> WellFormed(results)
    ensures WellFormed(results) ==>
              && Load(filename, results).rows == |results|
              && Load(filename, results).cols == (if results == [] then -1 else |results[0].value|)
              && Load(filename, results).values == Flatten(RowValues(results))
    decreases |results|
  {
    if results != [] {
      var front := results[..|results| - 1];
      var last := results[|results| - 1];
      LoadWellFormed(filename, front);
      if WellFormed(results) {
        assert WellFormed(front);
        assert RowValues(results) == RowValues(front) + [last.value];
        FlattenAppend(RowValues(front), last.value);
      } else if WellFormed(front) && last.Ok? && front != [] {
        assert front[0] == results[0];
        assert |last.value| != |results[0].value|;
      }
    }
  }

  /** The first m rows of a well-formed input flatten to m * width values. */
  lemma {:induction false} FlattenShape(results: seq<Result<seq<int>>>, m: nat)
    requires WellFormed(results) && 1 <= |results| && m <= |results|
    ensures |Flatten(RowValues(results)[..m])| == m * |results[0].value|
  {
    var rows := RowValues(results);
    if m > 0 {
      FlattenShape(results, m - 1);
      assert rows[..m] == rows[..m - 1] + [rows[m - 1]];
      FlattenAppend(rows[..m - 1], rows[m - 1]);
    } else {
      assert rows[..0] == [];
    }
  }

  /** Rows whose values are all digits flatten to digits. */
  lemma {:induction false} FlattenDigits(rows: seq<seq<int>>)
    requires forall r, v :: 0 <= r < |rows| && v in rows[r] ==> 0 <= v <= 9
    ensures forall v :: v in Flatten(rows) ==> 0 <= v <= 9
    decreases |rows|
  {
    if rows != [] {
      FlattenDigits(rows[1..]);
      assert forall v :: v in rows[0] ==> 0 <= v <= 9;
    }
  }

  /** Reading never clears the array: what was there stays in front. */
  lemma ReadArrayKeepsPrefix(filename: string, content: Option<string>, vec: seq<int>, expectedRows: int, expectedCols: int)
    ensures var (_, out) := ReadArrayResult(filename, content, vec, expectedRows, expectedCols);
            |vec| <= |out| && out[..|vec|] == vec
  {
  }

  /** On success every line parsed with the expected shape, and the array
      grew by exactly the file's values in row-major order, all digits 0..9. */
  lemma ReadArraySuccess(filename: string, content: Option<string>, vec: seq<int>, expectedRows: int, expectedCols: int)
    requires ReadArrayResult(filename, content, vec, expectedRows, expectedCols).0 == Pass
    ensures content.Some?
    ensures var results := RowResults(filename, TokenRows(Lines(content.value)));
            && WellFormed(results)
            && expectedRows == |results|
            && expectedCols == (if results == [] then -1 else |results[0].value|)
            && ReadArrayResult(filename, content, vec, expectedRows, expectedCols).1 == vec + Flatten(RowValues(results))
    ensures |ReadArrayResult(filename, content, vec, expectedRows, expectedCols).1| == |vec| + expectedRows * expectedCols
    ensures forall v :: v in ReadArrayResult(filename, content, vec, expectedRows, expectedCols).1[|vec|..] ==> 0 <= v <= 9
  {
    var tokenRows := TokenRows(Lines(content.value));
    var results := RowResults(filename, tokenRows);
    var rows := RowValues(results);
    LoadWellFormed(filename, results);
    if results != [] {
      FlattenShape(results, |results|);
      assert rows[..|results|] == rows;
    }
    forall r, v | 0 <= r < |rows| && v in rows[r]
      ensures 0 <= v <= 9
    {
      ParseRowCells(filename, tokenRows[r]);
    }
    FlattenDigits(rows);
    var out := ReadArrayResult(filename, content, vec, expectedRows, expectedCols).1;
    assert out[|vec|..] == Flatten(rows);
  }

  /** The converse: a file whose lines are well formed and of the expected
      shape is read without an exception. */
  lemma ReadArrayPasses(filename: string, content: Option<string>, vec: seq<int>, expectedRows: int, expectedCols: int)
    requires content.Some?
    requires var results := RowResults(filename, TokenRows(Lines(content.value)));
             && WellFormed(results)
             && expectedRows == |results|
             && expectedCols == (if results == [] then -1 else |results[0].value|)
    ensures ReadArrayResult(filename, content, vec, expectedRows, expectedCols).0 == Pass
  {
    LoadWellFormed(filename, RowResults(filename, TokenRows(Lines(content.value))));
  }

  /** An empty file has no rows and leaves cols at -1, so it never matches
      the dimensions a file name can give. */
  lemma ReadArrayEmptyFile(filename: string, vec: seq<int>, expectedRows: int, expectedCols: int)
    requires expectedCols >= 0
    ensures ReadArrayResult(filename, Some(""), vec, expectedRows, expectedCols)
            == (Fail(RuntimeError(DimensionsMismatch + filename)), vec)
  {
    assert Lines("") == [];
    assert RowResults(filename, TokenRows([])) == [];
    assert vec + [] == vec;
  }

  // ---------------------------------------------------------------------
  // get_positions_str

  /** One position as get_positions_str writes it: "(row,col) ". */
  function Entry(p: Position): string
  {
    "(" + IntToString(p.row) + "," + IntToString(p.col) + ") "
  }

  /** The entries of the positions, in list order. */
  function PositionsStr(ps: seq<Position>): string
  {
    if ps == [] then "" else PositionsStr(ps[..|ps| - 1]) + Entry(ps[|ps| - 1])
  }

  /** get_positions_str: appends each entry to the string in turn. */
  method GetPositionsStr(positions: seq<Position>) returns (ss: string)
    ensures ss == PositionsStr(positions)
  {
    ss := "";
    var i := 0;
    while i < |positions|
      invariant 0 <= i <= |positions|
      invariant ss == PositionsStr(positions[..i])
    {
      assert positions[..i + 1][..i] == positions[..i];
      var pos := positions[i];
      var entry := "(" + IntToString(pos.row) + "," + IntToString(pos.col) + ") ";
      ss := ss + entry;
      i := i + 1;
    }
    assert positions[..i] == positions;
  }

  lemma ConcatLast<T>(a: seq<T>, b: seq<T>)
    requires b != []
    ensures (a + b)[..|a + b| - 1] == a + b[..|b| - 1] && (a + b)[|a + b| - 1] == b[|b| - 1]
  {
  }

  lemma TakeNext<T>(s: seq<T>, k: nat)
    requires k < |s|
    ensures s[..k + 1] == s[..k] + [s[k]]
  {
  }

  lemma AppendAssoc<T>(x: seq<T>, y: seq<T>, z: seq<T>)
    ensures (x + y) + z == x + (y + z)
  {
  }

  lemma PositionsStrLast(ps: seq<Position>)
    requires ps != []
    ensures PositionsStr(ps) == PositionsStr(ps[..|ps| - 1]) + Entry(ps[|ps| - 1])
  {
  }

  /** The text of a concatenation is the concatenation of the texts. */
  lemma {:induction false} PositionsStrConcat(a: seq<Position>, b: seq<Position>)
    ensures PositionsStr(a + b) == PositionsStr(a) + PositionsStr(b)
    decreases |b|
  {
    if b == [] {
      assert a + b == a;
    } else {
      var front, x := b[..|b| - 1], b[|b| - 1];
      ConcatLast(a, b);
      PositionsStrLast(a + b);
      PositionsStrConcat(a, front);
      AppendAssoc(PositionsStr(a), PositionsStr(front), Entry(x));
    }
  }

  /** The text holds no double quote and no line break, so quoting it
      makes it one CSV field on one line; it is empty only for no positions. */
  lemma {:induction false} PositionsStrQuotable(ps: seq<Position>)
    ensures '"' !in PositionsStr(ps) && '\n' !in PositionsStr(ps)
    ensures (PositionsStr(ps) == "") == (ps == [])
    decreases |ps|
  {
    if ps != [] {
      PositionsStrQuotable(ps[..|ps| - 1]);
      var r := IntToString(ps[|ps| - 1].row);
      var c := IntToString(ps[|ps| - 1].col);
      assert '"' !in r && '\n' !in r && '"' !in c && '\n' !in c;
    }
  }

  // ---------------------------------------------------------------------
  // write_to_csv

  /** std::replace of every '/' by '_'. */
  function ReplaceSlash(s: string): (r: string)
    ensures |r| == |s| && '/' !in r
    ensures forall i :: 0 <= i < |s| ==> r[i] == if s[i] == '/' then '_' else s[i]
  {
    if s == [] then [] else ReplaceSlash(s[..|s| - 1]) + [if s[|s| - 1] == '/' then '_' else s[|s| - 1]]
  }

  /** The file name part of the CSV path: the data path with slashes
      replaced, then the two shapes. */
  function CsvName(dataPath: string, sRows: int, sCols: int, tRows: int, tCols: int): string
  {
    ReplaceSlash(dataPath) + "_" + IntToString(sRows) + "x" + IntToString(sCols)
      + "_" + IntToString(tRows) + "x" + IntToString(tCols) + ".csv"
  }

  /** The CSV path: always inside "outputs/", with no further directory. */
  function CsvPath(dataPath: string, sRows: int, sCols: int, tRows: int, tCols: int): (path: string)
    ensures |path| > |OutputDir| && path[..|OutputDir|] == OutputDir
    ensures '/' !in path[|OutputDir|..]
    ensures EndsWith(path, ".csv")
  {
    var name := CsvName(dataPath, sRows, sCols, tRows, tCols);
    assert '/' !in IntToString(sRows) && '/' !in IntToString(sCols);
    assert '/' !in IntToString(tRows) && '/' !in IntToString(tCols);
    assert (OutputDir + name)[|OutputDir|..] == name;
    OutputDir + name
  }

  function Quote(s: string): string
  {
    "\"" + s + "\""
  }

  /** The record appended for one run, positions quoted. The number texts
      stand for best_value and time as the stream formats them. */
  function CsvRecord(methodName: string, threadsCount: int, bestPositions: seq<Position>,
                     valueText: string, timeText: string): string
  {
    methodName + "," + IntToString(threadsCount) + "," + Quote(PositionsStr(bestPositions)) + ","
      + valueText + "," + timeText + "\n"
  }

  /** The header goes in front exactly when the file is still empty. */
  function HeaderFor(existing: string): string
  {
    if existing == "" then CsvHeader else ""
  }

  /** The file after appending a record. */
  function Appended(existing: string, record: string): string
  {
    existing + (HeaderFor(existing) + record)
  }

  /** The header is written once: appending to a file already written adds
      only the record, and a file started empty begins with the header. */
  lemma HeaderOnce(existing: string, first: string, second: string)
    requires first != ""
    ensures Appended(Appended(existing, first), second) == Appended(existing, first) + second
    ensures existing == "" ==> Appended(Appended(existing, first), second) == CsvHeader + first + second
  {
  }

  /** write_to_csv. Whether "outputs" exists, whether creating it works and
      the CSV file's contents (None when it cannot be opened) are inputs;
      the result is what was thrown, the path, and the text appended. */
  method WriteToCsv(dataPath: string, sRows: int, sCols: int, tRows: int, tCols: int,
                    methodName: string, threadsCount: int, bestPositions: seq<Position>,
                    valueText: string, timeText: string,
                    dirExists: bool, dirCreated: bool, existing: Option<string>)
    returns (outcome: Outcome, csvPath: string, written: string)
    ensures csvPath == CsvPath(dataPath, sRows, sCols, tRows, tCols)
    ensures !dirExists && !dirCreated ==> outcome == Fail(RuntimeError(DirectoryFailed)) && written == ""
    ensures (dirExists || dirCreated) && existing.None? ==>
              outcome == Fail(RuntimeError(CsvOpenFailed + csvPath)) && written == ""
    ensures (dirExists || dirCreated) && existing.Some? ==>
              && outcome == Pass
              && existing.value + written
                 == Appended(existing.value, CsvRecord(methodName, threadsCount, bestPositions, valueText, timeText))
  {
    csvPath := OutputDir;
    var filename := ReplaceSlash(dataPath);
    filename := filename + "_" + IntToString(sRows) + "x" + IntToString(sCols) + "_"
                + IntToString(tRows) + "x" + IntToString(tCols) + ".csv";
    csvPath := csvPath + filename;
    written := "";
    if !dirExists && !dirCreated {
      return Fail(RuntimeError(DirectoryFailed)), csvPath, written;
    }
    if existing.None? {
      return Fail(RuntimeError(CsvOpenFailed + csvPath)), csvPath, written;
    }
    var header := if existing.value == "" then CsvHeader else "";
    var positionsStr := GetPositionsStr(bestPositions);
    positionsStr := "\"" + positionsStr + "\"";
    var record := methodName + "," + IntToString(threadsCount) + "," + positionsStr + ","
                  + valueText + "," + timeText + "\n";
    written := header + record;
    outcome := Pass;
  }
}
